=== FILE: README.md ===
# Insurance claims assistant: the decision logic, modelled in Dafny

The system is a set of serverless functions around an insurance claims
assistant, together with a generator for its synthetic data. Most of it is glue
to storage, a PDF reader, an embedding model and a search index. This project
models the pure logic inside that glue and proves what it promises:

- **Document ingestion** (`chunker.dfy`, `rag_ingestion.dfy`). `chunk_text` is a
  sliding window of `chunk_size` characters advancing by
  `chunk_size - overlap`. The handler ignores keys that are not PDFs, stops on a
  document without text, and sends every chunk to the index with its source key
  and position. Extracting text and posting a chunk are function parameters.
- **Document requirements** (`document_requirements.dfy`). The service looks up
  the documents a loss type requires and reports which ones were not submitted,
  and whether the claim is complete. It reads the rules file until one read
  succeeds and never again after that (`read_once_cache.dfy`).
- **Policy details** (`policy_details.dfy`). The service looks up a policy by id,
  with distinct error results, behind the same read-once cache.
- **Orchestrator** (`agent_orchestrator.dfy`). A keyword router sends queries
  mentioning "policy" to the policy function and queries mentioning "claim" to
  the claim function, each with fixed arguments. Every reply has status 200.
- **Synthetic data** (`data_generation.dfy`). This covers `generate_policies`,
  `generate_claim` and the loss-type and document-rule tables. Every random
  choice is an explicit draw: a natural number, a boolean or, for the fake
  name, a string. So each property holds for every outcome of the generator.
- **Consistency** (`consistency.dfy`). These lemmas check the generated data
  against the services:
  - a generated claim is reported complete exactly when the generator submitted
    every document, and otherwise misses exactly the last one;
  - every generated policy is found under its id.

Supporting modules:

- `wrappers.dfy` holds `Option` and `Result`.
- `json.dfy` holds decoded JSON values with the Python behaviour the handlers
  rely on:
  - truthiness;
  - `dict.get` raising on an unhashable key;
  - `in` on a list, string or dict, and raising on anything else;
  - `[...]` raising `KeyError`.
- `text.dfy` holds ASCII case mapping, substring search, and decimal and hex
  printing.

A raised exception is an `Err` value. A handler that catches exceptions turns
them into its `{"error": ...}` result, as the source does. Decoded JSON is the
`Json.Value` datatype; `json.loads` and `json.dumps` are the identity on it.

## Model

| member | source | states |
|---|---|---|
| Chunker.SliceBound | Lambda_functions/rag_ingestion/app.py:61 | A Python slice bound is normalised into `[0, n]`: a non-negative bound is clipped to the length, a negative bound counts back from the end, and one before the start becomes 0. |
| Chunker.Slice | Lambda_functions/rag_ingestion/app.py:61 | `text[start:end]` is the text between the normalised `start` and the normalised `end`, and is empty when those bounds are reversed. |
| Chunker.ChunksFrom | Lambda_functions/rag_ingestion/app.py:59-62 | The loop from position `start` yields no chunk exactly when `start` is at or past the end; with a positive `chunk_size` (the window), every chunk is non-empty and at most `chunk_size` long. |
| Chunker.ChunkText | Lambda_functions/rag_ingestion/app.py:55-64 | With `step = chunk_size - overlap > 0`, which the loop needs to terminate, empty text gives no chunks and only empty text does; with a positive `chunk_size`, every chunk is also non-empty and at most `chunk_size` long. |
| Chunker.ChunkFromAt | Lambda_functions/rag_ingestion/app.py:59-62 | Chunk `i` of the loop started at `start` begins inside the text at `start + i*step` and is the slice of `chunk_size` characters from there. |
| Chunker.ChunkFromCount | Lambda_functions/rag_ingestion/app.py:59-62 | The loop stops at the first multiple of `step` that reaches the end of the text: `n*step` covers the rest and `(n-1)*step` does not. |
| Chunker.ChunkAt | Lambda_functions/rag_ingestion/app.py:59-62 | Chunk `i` starts inside the text at `i*step` and is `text[i*step : i*step + chunk_size]`. |
| Chunker.ChunkTextLoop | Lambda_functions/rag_ingestion/app.py:55-64 | The while loop as written, with `start` advancing by `step`, yields exactly the chunks of the functional definition. |
| Chunker.ChunkCount | Lambda_functions/rag_ingestion/app.py:59-62 | The number of chunks is `ceil(len(text) / step)`. |
| Chunker.ChunkBounds | Lambda_functions/rag_ingestion/app.py:59-62 | Chunk `i` is `text[i*step .. min(i*step + chunk_size, len(text))]`, of length between 1 and `chunk_size`. |
| Chunker.ChunkOverlap | Lambda_functions/rag_ingestion/app.py:60-62 | When chunk `i` is full length and another follows, its last `overlap` characters are the first `overlap` characters of chunk `i+1`. |
| Chunker.ReassembleFrom | Lambda_functions/rag_ingestion/app.py:59-62 | The first `step` characters of each chunk but the last, then the whole last chunk, rebuild the text from the loop's starting position. |
| Chunker.RoundTrip | Lambda_functions/rag_ingestion/app.py:55-64 | Round trip: for `0 <= overlap < chunk_size`, reassembling the chunks gives back the whole text. |
| RagIngestion.IndexChunk | Lambda_functions/rag_ingestion/app.py:85-104 | Indexing a chunk succeeds exactly when the index answers status 200 or 201; any other status or a failed post raises. |
| RagIngestion.IndexAll | Lambda_functions/rag_ingestion/app.py:132-138 | The loop sends chunk `i` with metadata `{source: key, chunk_index: i}` in order. It stops at the first failure, which is the last request sent, and every earlier request was accepted. It succeeds exactly when every chunk was sent and accepted. |
| RagIngestion.HandleObject | Lambda_functions/rag_ingestion/app.py:120-144 | A key that is not a PDF after lower-casing is ignored, with no extraction and no requests. A failed extraction raises before any request. Empty text gives `empty_document` with no request sent. Otherwise the requests are those of the indexing loop over the default chunking, and the result is `indexed` with the key and `len(chunks)` exactly when that loop succeeds. |
| RagIngestion.ReadEvent | Lambda_functions/rag_ingestion/app.py:115-117 | Reading succeeds exactly when `detail.bucket.name` and `detail.object.key` are present and the key is a string; it then yields that bucket value and that key. |
| RagIngestion.Handle | Lambda_functions/rag_ingestion/app.py:110-148 | A malformed event raises with nothing extracted or sent. The object is ignored exactly when its key at `detail.object.key` is not a PDF. Only a PDF key is extracted; `empty_document` is answered exactly when the object in bucket `detail.bucket.name` has no text, and then nothing is sent. For text, the requests are those of the indexing loop over that text's chunks, each naming the key and its own position, and the result is `indexed` with the key and `len(chunks)` exactly when that loop succeeds. |
| RagIngestion.EventRoundTrip | Lambda_functions/rag_ingestion/app.py:115-117 | For the event announcing an object with a given bucket and key, the handler reads back that bucket and key and handles exactly that object. |
| RagIngestion.IsPdfKey | Lambda_functions/rag_ingestion/app.py:120 | A key passes the PDF test exactly when its last four characters, lower-cased, are ".pdf". |
| RagIngestion.AcceptedPdfIndexed | Lambda_functions/rag_ingestion/app.py:125-144 | A PDF with text whose every chunk is accepted is reported `indexed` with its chunk count, after exactly one request per chunk, in order. |
| RagIngestion.RejectionStopsIndexing | Lambda_functions/rag_ingestion/app.py:132-138 | When chunk `n` is the first one rejected, the handler raises after sending exactly `n + 1` requests. |
| RagIngestion.UpperCaseExtensionAccepted | Lambda_functions/rag_ingestion/app.py:120 | A key ending in ".PDF" passes the PDF test. |
| RagIngestion.TextFileIgnored | Lambda_functions/rag_ingestion/app.py:120-121 | A key ending in ".txt" is ignored without extraction or indexing. |
| Text.LowerChar | Lambda_functions/rag_ingestion/app.py:120 | Lower-casing maps an ASCII capital to its small letter, leaves every other character as it is, and never yields an ASCII capital. |
| Text.EndsWith | Lambda_functions/rag_ingestion/app.py:120 | `s.endswith(suffix)` holds exactly when the suffix fits and matches the last characters of `s` one by one. |
| Text.Lower | Lambda_functions/rag_ingestion/app.py:120 | `str.lower` keeps the length and lower-cases each character. |
| Text.LowerSlice | Lambda_functions/rag_ingestion/app.py:120 | Lower-casing commutes with slicing, so a suffix test on the lower-cased key sees the lower-cased suffix. |
| Text.LowerIdempotent | Lambda_functions/agent_orchestrator/app.py:20 | Lower-casing twice is lower-casing once. |
| Text.Contains | Lambda_functions/agent_orchestrator/app.py:20 | Substring `in` always finds the empty string and never finds a needle longer than the string. |
| Text.ContainsIff | Lambda_functions/agent_orchestrator/app.py:20 | Substring `in` holds exactly when the needle occurs at some position. |
| Text.ContainsLower | Lambda_functions/agent_orchestrator/app.py:20 | A substring of a string stays a substring after both are lower-cased. |
| ReadOnceCache.Get | Lamba_functions/check_document_requirements/app.py:13-23 | The file is read exactly when nothing is cached; a cached value is returned unchanged; a successful read is cached; a failed read leaves the cache empty. |
| ReadOnceCache.Run | Lamba_functions/check_document_requirements/app.py:13-23 | A sequence of calls gives one load per call. |
| ReadOnceCache.RunFromLoaded | Lamba_functions/get_policiy_details/app.py:13-23 | Once loaded, no later call reads, and every call answers the cached value. |
| ReadOnceCache.ReadOnce | Lamba_functions/check_document_requirements/app.py:13-23 | After the first successful load, every later call neither reads nor answers anything but that same value. |
| Json.DictGet | Lamba_functions/check_document_requirements/app.py:35 | `dict.get` raises exactly on an unhashable key (list or dict); otherwise it finds a value exactly when the key is a string stored in the dict. |
| Json.Truthy | Lamba_functions/check_document_requirements/app.py:30 | A value is false exactly when it is `None`, `False`, `0`, `""`, `[]` or `{}`. |
| Json.GetOr | Lamba_functions/get_policiy_details/app.py:27 | `event.get(key, default)` is the stored value, or the default (`None` when not given) when the key is absent. The handlers read `loss_type`, `documents_submitted` (default `[]`) and `policy_id` this way. |
| Json.In | Lamba_functions/check_document_requirements/app.py:37 | `in` raises exactly when the container is `None`, a bool or a number. |
| Json.Index | Lambda_functions/rag_ingestion/app.py:115-117 | `v[key]` succeeds exactly when `v` is a dict holding `key`, and answers its value. |
| Json.StrList | Lamba_functions/check_document_requirements/app.py:28 | A list of strings as a JSON array, element by element. |
| Json.InStrList | Lamba_functions/check_document_requirements/app.py:37 | Against a list of strings, `in` is list membership and never raises. |
| DocumentRequirements.Missing | Lamba_functions/check_document_requirements/app.py:37 | The comprehension raises exactly when something is required and the submitted value is not iterable. Otherwise its result is a subsequence of the required list that holds each required document not found in the submitted value as often as it is required, and nothing else. |
| DocumentRequirements.Handle | Lamba_functions/check_document_requirements/app.py:26-46 | A missing or empty loss type is an error and reads nothing. Otherwise the rules are read only if not cached, the cache left is the loader's, and a failed read is reported as its error. A report lists the rules for the loss type (or none), the missing documents, and `complete` exactly when none is missing. With the rules loaded, a hashable loss type and a submitted value the check can scan, the answer is a report. |
| DocumentRequirements.RequiredFor | Lamba_functions/check_document_requirements/app.py:35 | `rules.get(loss_type, [])` is what `dict.get` finds for the loss type, or the empty list when it finds nothing. |
| DocumentRequirements.MissingFromList | Lamba_functions/check_document_requirements/app.py:37 | Against a submitted list, a document is missing exactly when it is required and not in the list. |
| DocumentRequirements.NothingSubmitted | Lamba_functions/check_document_requirements/app.py:28-37 | With nothing submitted, every required document is missing, in order. |
| DocumentRequirements.LossTypeRequired | Lamba_functions/check_document_requirements/app.py:27-31 | An empty or absent loss type gives `loss_type is required` and leaves the cache unread. |
| DocumentRequirements.CompleteIffAllSubmitted | Lamba_functions/check_document_requirements/app.py:35-42 | With rules cached, the required documents are `rules[loss_type]` or `[]`; missing means required and not submitted; complete holds exactly when every required document was submitted. |
| DocumentRequirements.CheckedAgainstCachedRules | Lamba_functions/check_document_requirements/app.py:33-43 | With the rules cached, a request for a known loss type reads nothing and reports that loss type's documents, the missing ones among them, and `complete` exactly when none is missing. |
| DocumentRequirements.UnknownLossTypeComplete | Lamba_functions/check_document_requirements/app.py:35-42 | An unknown loss type requires nothing, misses nothing and is complete. |
| DocumentRequirements.AbsentSubmissionMissesAll | Lamba_functions/check_document_requirements/app.py:28-42 | Without `documents_submitted`, missing equals required. |
| DocumentRequirements.SecondCheckUsesCache | Lamba_functions/check_document_requirements/app.py:13-34 | The first check reads the rules; a second check does not, and answers as if against those rules, whatever the store would now give. |
| DocumentRequirements.MissingSkipsSubmitted | Lamba_functions/check_document_requirements/app.py:37 | A leading run of submitted documents contributes nothing to the missing list. |
| DocumentRequirements.AllSubmitted | Lamba_functions/check_document_requirements/app.py:37-42 | Submitting the required list itself leaves nothing missing. |
| DocumentRequirements.AllButLastSubmitted | Lamba_functions/check_document_requirements/app.py:37-42 | Submitting all but the last required document, when that one is not repeated earlier, leaves exactly it missing. |
| DocumentRequirements.MissingOne | Lamba_functions/check_document_requirements/app.py:37 | One required document that was not submitted is missing. |
| PolicyDetails.Handle | Lamba_functions/get_policiy_details/app.py:26-42 | A missing or empty id is an error and reads nothing. Otherwise the cache left is the loader's, and a failed read is reported as its error. A record is answered exactly when the id is a stored string key with a non-empty record, and it is that record. With hashable ids, every other outcome after loading is `Policy not found`. No path raises. |
| PolicyDetails.KnownPolicyReturned | Lamba_functions/get_policiy_details/app.py:33-39 | A known id with a non-empty record gets that record unchanged, and the cache is not re-read. |
| PolicyDetails.NotFound | Lamba_functions/get_policiy_details/app.py:34-37 | An unknown id, or one whose stored record is empty, gets `Policy not found`. |
| PolicyDetails.SecondLookupUsesCache | Lamba_functions/get_policiy_details/app.py:13-33 | The first lookup reads the policies; a second lookup does not, and sees the same map. |
| PolicyDetails.FailedReadRetried | Lamba_functions/get_policiy_details/app.py:16-42 | A failed read becomes an error result and leaves the cache empty, so the next call reads again. |
| AgentOrchestrator.Decide | Lambda_functions/agent_orchestrator/app.py:20-33 | The policy route is taken exactly when the lower-cased query contains "policy"; the claim route exactly when it contains "claim" but not "policy". |
| AgentOrchestrator.QueryOf | Lambda_functions/agent_orchestrator/app.py:16-17 | A string query in the body object is returned as it is. A missing body, or a body without `query`, gives the empty query. It raises exactly when the body is not an object or its query is not a string. |
| AgentOrchestrator.EnvVar | Lambda_functions/agent_orchestrator/app.py:22 | `os.environ[name]` succeeds exactly when the variable is set, and answers its value. |
| AgentOrchestrator.Handle | Lambda_functions/agent_orchestrator/app.py:15-38 | Every reply has status 200. The policy route invokes the policy function with exactly `{"policy_id": "POL123"}`, the claim route the claim function with exactly `{"claim_id": "CLM456"}`, and they reply with its answer. Otherwise nothing is invoked and the fixed message is the body. |
| AgentOrchestrator.RouteIgnoresCase | Lambda_functions/agent_orchestrator/app.py:20-26 | The route depends only on the lower-cased query. |
| AgentOrchestrator.PolicyBeforeClaim | Lambda_functions/agent_orchestrator/app.py:20-26 | A query containing "policy" written in any mix of cases goes to the policy function, even if it also mentions "claim". |
| AgentOrchestrator.MissingQueryNotUnderstood | Lambda_functions/agent_orchestrator/app.py:16-33 | A request without a body, or whose body object has no `query`, gets the fixed message and invokes nothing. |
| Text.NatToString | Database_Generation/generate_data.py:66 | Decimal printing gives at least one digit, a single digit exactly below ten, and digits only. |
| Text.NatToStringValue | Database_Generation/generate_data.py:66 | The printed digits denote the number (`int(str(n)) == n`), and the first digit is zero only for zero, so there is no leading zero. |
| Text.NatToStringInjective | Database_Generation/generate_data.py:66 | Different numbers print differently. |
| Text.HexDigits | Database_Generation/generate_data.py:83 | The hex form of a number has the requested width and lower-case hex digits only. |
| Text.Upper | Database_Generation/generate_data.py:83 | `str.upper` keeps the length and upper-cases each character. |
| Text.UpperHex | Database_Generation/generate_data.py:83 | Upper-casing lower-case hex digits gives upper-case hex digits. |
| DataGeneration.Pick | Database_Generation/generate_data.py:65 | `random.choice` answers an element of the list. |
| DataGeneration.PickReachable | Database_Generation/generate_data.py:65 | Every element of the list can be chosen: draw `k` picks element `k`. |
| DataGeneration.DropLast | Database_Generation/generate_data.py:91 | `xs[:-1]` is the list without its last element, and empty for an empty list. |
| DataGeneration.PolicyId | Database_Generation/generate_data.py:66 | A policy id is its prefix, a dash, then at least one decimal digit and nothing but digits. Those digits denote `10000 + i` and do not begin with zero. |
| DataGeneration.MakePolicy | Database_Generation/generate_data.py:64-77 | Iteration `i` stores id `PREFIX-(10000+i)` with the drawn prefix. The type is "auto" exactly when the prefix is "AUTO", and otherwise "home". The name is the drawn one, and state, coverage limit and deductible come from their lists. |
| DataGeneration.MakePolicyValid | Database_Generation/generate_data.py:64-77 | Every generated policy has an `AUTO-n` or `HOME-n` id, is of type "auto" exactly when the prefix is "AUTO" (else "home"), has a type with loss types, and takes state, coverage limit and deductible from their lists. |
| DataGeneration.PolicyIdInjective | Database_Generation/generate_data.py:65-66 | Ids from different iterations or different prefixes differ. |
| DataGeneration.IdAt | Database_Generation/generate_data.py:64-66 | The id written by iteration `i` is the id of the policy it builds. |
| DataGeneration.IdAtInjective | Database_Generation/generate_data.py:64-66 | Different iterations write different ids. |
| DataGeneration.BuildMap | Database_Generation/generate_data.py:62-69 | After `n` iterations of writing `d[key(i)]`, every written key is present. |
| DataGeneration.BuildMapEntry | Database_Generation/generate_data.py:62-69 | Every key in the dictionary was written by some iteration. |
| DataGeneration.BuildMapDistinct | Database_Generation/generate_data.py:62-69 | With distinct keys nothing is overwritten: one entry per iteration, holding that iteration's value. |
| DataGeneration.GeneratedPolicyEntries | Database_Generation/generate_data.py:61-79 | The generated dictionary has exactly 50 entries, iteration `i`'s policy under its id. |
| DataGeneration.GeneratedPoliciesValid | Database_Generation/generate_data.py:61-79 | Every stored record is a generated policy stored under its own `policy_id`. |
| DataGeneration.GeneratePolicies | Database_Generation/generate_data.py:61-79 | Exactly 50 policies, each under its own id and of the generated shape, one per iteration. |
| DataGeneration.ClaimId | Database_Generation/generate_data.py:83 | A claim id is "CLM-" followed by 8 upper-case hex characters. |
| DataGeneration.Damage | Database_Generation/generate_data.py:93 | `randint(1000, 60000)` lies in that range, both ends included. |
| DataGeneration.DamageReachable | Database_Generation/generate_data.py:93 | Every amount from 1000 to 60000 can be drawn. |
| DataGeneration.LossTypesHaveRules | Database_Generation/generate_data.py:43-53 | Every loss type of every policy type has a document rule. |
| DataGeneration.GenerateClaim | Database_Generation/generate_data.py:82-103 | Raises exactly when the policy type has no loss types. Otherwise the claim copies `policy_id` and `state`, is "submitted", has a loss type of its policy type with a document rule and damage in range, and submits a prefix of the required documents missing at most one: all of them exactly when the draw says so. |
| DataGeneration.GeneratedPolicyHasClaims | Database_Generation/generate_data.py:84 | Generating a claim for any policy `generate_policies` builds never raises. |
| Consistency.PolicyToJson | Database_Generation/generate_data.py:69-77 | A policy's record holds its `policy_id` and `state`. |
| Consistency.PoliciesFile | Database_Generation/generate_data.py:61-79 | The policies file has the generated ids as keys, each with its policy's record. |
| Consistency.RulesEndInNewDocument | Database_Generation/generate_data.py:48-53 | Every document rule is non-empty and its last document is not repeated earlier. |
| Consistency.GeneratedClaimChecked | Lamba_functions/check_document_requirements/app.py:35-42 | A generated claim checked against the generated rules reports that loss type's documents; it is complete exactly when all were submitted, and otherwise misses exactly the last one. |
| Consistency.GeneratedPolicyFound | Lamba_functions/get_policiy_details/app.py:33-39 | Every generated policy is found under its id, as the record the generator wrote, without reading again. |
| Consistency.ClaimPolicyFound | Database_Generation/generate_data.py:95-99 | A claim generated for the policy of any iteration can be generated, names that policy's id, and looking it up answers the policy's record, in the claim's state. |

## Left out

- Storage and remote calls are not modelled. This covers object reads and uploads, invoking another function, PDF parsing, embeddings, and the authenticated HTTP post to the search index. Each is a parameter (`store`, `extract`, `post`, `invoke`) or is outside the model. `extract_text_from_pdf` is not part of this model beyond its result.
- The uuid passed to `index_chunk` as `chunk_id` is left out, because `index_chunk` never uses it. Log `print` calls are left out too.
- `Lamba_functions/get_claim_status/app.py` and `Web_interface/app.py` are not part of this model. The first is a single storage read behind a required-field check; the second is a UI.
- `generate_claims` is left out: choosing a policy at random, writing claim files and uploading them. `ClaimPolicyFound` covers any policy it could choose. The `NUM_CLAIMS` count, the unused `POLICY_TYPES` list, and the `.env` and client set-up are also left out.
- Faker names are an oracle string in the policy draw. `random.random() < 0.7` is a boolean draw. A uuid is a natural number whose 32 hex digits are printed. `random.choice` and `randint` are draws reduced modulo the choices, so every outcome is reachable.
- Text.LowerChar: maps the ASCII capitals only. Python's `str.lower` also maps non-ASCII capitals such as 'É', which this model leaves unchanged.
- Text.Lower: lower-cases ASCII letters only; Python's `str.lower` also maps non-ASCII capitals. The routing and the PDF test are stated for that mapping.
- Text.Upper: upper-cases ASCII letters only. The model applies it only to hex digits, where the two agree.
- `json.loads` and `json.dumps` are the identity on decoded values. A request body that is not valid JSON, floats, and the reply body's string form are left out. `AgentOrchestrator.QueryOf` takes the body as already decoded.
- The rules file is typed as a map from loss type to a list of names, which is what the generator writes; rules of other shapes are left out. The policies file holds arbitrary JSON records.
- Exception messages are approximations of Python's wording. The contracts state where an error arises, not its exact text, except for the handlers' own fixed messages.
- The cache is one value passed from call to call. Concurrent invocations sharing it are left out.
- Chunker.RoundTrip: stated for `0 <= overlap < chunk_size`. A negative overlap makes the windows skip characters, so nothing can rebuild the text. `ChunkText` itself also covers those parameters, and a non-positive window with its Python slice semantics.
- Chunker.ChunkOverlap: stated for `0 <= overlap < chunk_size` and a full-length chunk `i`, the only case in which neighbours share `overlap` characters.
- `chunk_text` with `chunk_size - overlap <= 0` never terminates on non-empty text; on empty text it returns `[]` at once. `ChunkText` requires a positive step instead of modelling the endless loop.

=== FILE: agent_orchestrator.dfy ===
/** The orchestrator's keyword router: a query mentioning "policy" is sent to
    the policy service, one mentioning "claim" to the claim service, both with
    fixed arguments; anything else gets a fixed reply. Calling another function
    is the parameter `invoke`. */
module AgentOrchestrator {
  import opened Wrappers
  import opened Json
  import Text

  const POLICY_FUNCTION_VAR: string := "GET_POLICY_FUNCTION"
  const CLAIM_FUNCTION_VAR: string := "GET_CLAIM_FUNCTION"
  const POLICY_ARGS: Value := Obj(map["policy_id" := Str("POL123")])
  const CLAIM_ARGS: Value := Obj(map["claim_id" := Str("CLM456")])
  const NOT_UNDERSTOOD: Value := Obj(map["message" := Str("I don\U{2019}t understand the request yet.")])

  datatype Route = PolicyRoute | ClaimRoute | NoRoute

  /** A call of another function: its name and its payload. */
  datatype Call = Call(functionName: string, payload: Value)

  /** The HTTP reply: status code and body. */
  datatype Reply = Reply(statusCode: int, body: Value)

  /** One handler call: the function it invoked, if any, and its reply. */
  datatype Turn = Turn(call: Option<Call>, reply: Reply)

  /** The routing decision on the lower-cased query, "policy" taking precedence. */
  function Decide(query: string): (r: Route)
    ensures r == PolicyRoute <==> Text.Contains(Text.Lower(query), "policy")
    ensures r == ClaimRoute <==>
      !Text.Contains(Text.Lower(query), "policy") && Text.Contains(Text.Lower(query), "claim")
  {
    var q := Text.Lower(query);
    if Text.Contains(q, "policy") then PolicyRoute
    else if Text.Contains(q, "claim") then ClaimRoute
    else NoRoute
  }

  /** `json.loads(event.get("body", "{}")).get("query", "")`: a body that is
      not an object, or a query that is not a string, raises. */
  function QueryOf(event: map<string, Value>): (r: Result<string>)
    ensures "body" !in event ==> r == Ok("")
    ensures "body" in event && event["body"].Obj? && "query" !in event["body"].fields ==> r == Ok("")
    ensures
      && "body" in event && event["body"].Obj? && "query" in event["body"].fields
      && event["body"].fields["query"].Str?
      ==> r == Ok(event["body"].fields["query"].s)
    ensures r.Err? <==>
      && "body" in event
      && (!event["body"].Obj? || ("query" in event["body"].fields && !event["body"].fields["query"].Str?))
  {
    var body := if "body" in event then event["body"] else Obj(map[]);
    if !body.Obj? then Err("'" + TypeName(body) + "' object has no attribute 'get'")
    else
      var query := if "query" in body.fields then body.fields["query"] else Str("");
      if query.Str? then Ok(query.s)
      else Err("'" + TypeName(query) + "' object has no attribute 'lower'")
  }

  /** `os.environ[name]`: an unset variable raises `KeyError`. */
  function EnvVar(env: map<string, string>, name: string): (r: Result<string>)
    ensures r.Ok? <==> name in env
    ensures r.Ok? ==> r.value == env[name]
  {
    if name in env then Ok(env[name]) else Err("'" + name + "'")
  }

  /** `r` is the outcome of forwarding `args` to the function named by the
      environment variable `envVar`: it succeeds exactly when the variable is
      set and the call answers, and then records that one call and replies with
      its answer. */
  predicate Forwarded(r: Result<Turn>, env: map<string, string>, envVar: string, args: Value,
                      invoke: Call -> Result<Value>)
  {
    && (r.Ok? <==> envVar in env && invoke(Call(env[envVar], args)).Ok?)
    && (r.Ok? ==>
          && r.value.call == Some(Call(env[envVar], args))
          && r.value.reply == Reply(200, invoke(Call(env[envVar], args)).value))
  }

  /** `lambda_handler`. `env` is the process environment; `invoke` calls another
      function and answers its decoded result, or raises. Every reply has
      status 200; the policy route invokes the policy function with exactly
      `{"policy_id": "POL123"}`, the claim route the claim function with exactly
      `{"claim_id": "CLM456"}`, and otherwise nothing is invoked and the body is
      the fixed message. */
  function Handle(event: map<string, Value>, env: map<string, string>, invoke: Call -> Result<Value>)
    : (r: Result<Turn>)
    ensures r.Ok? ==> r.value.reply.statusCode == 200
    ensures r.Ok? ==> QueryOf(event).Ok?
    ensures QueryOf(event).Ok? && Decide(QueryOf(event).value) == PolicyRoute ==>
      Forwarded(r, env, POLICY_FUNCTION_VAR, POLICY_ARGS, invoke)
    ensures QueryOf(event).Ok? && Decide(QueryOf(event).value) == ClaimRoute ==>
      Forwarded(r, env, CLAIM_FUNCTION_VAR, CLAIM_ARGS, invoke)
    ensures QueryOf(event).Ok? && Decide(QueryOf(event).value) == NoRoute ==>
      r == Ok(Turn(None, Reply(200, NOT_UNDERSTOOD)))
  {
    var query :- QueryOf(event);
    match Decide(query)
    case PolicyRoute =>
      var name :- EnvVar(env, POLICY_FUNCTION_VAR);
      var call := Call(name, POLICY_ARGS);
      var result :- invoke(call);
      Ok(Turn(Some(call), Reply(200, result)))
    case ClaimRoute =>
      var name :- EnvVar(env, CLAIM_FUNCTION_VAR);
      var call := Call(name, CLAIM_ARGS);
      var result :- invoke(call);
      Ok(Turn(Some(call), Reply(200, result)))
    case NoRoute =>
      Ok(Turn(None, Reply(200, NOT_UNDERSTOOD)))
  }

  /** The routing only depends on the lower-cased query. */
  lemma RouteIgnoresCase(query: string)
    ensures Decide(Text.Lower(query)) == Decide(query)
  {
    Text.LowerIdempotent(query);
  }

  /** "policy" takes precedence: a query containing "policy" written in any
      mix of cases goes to the policy function, whatever else it mentions. */
  lemma PolicyBeforeClaim(query: string, word: string)
    requires Text.Lower(word) == "policy" && Text.Contains(query, word)
    ensures Decide(query) == PolicyRoute
  {
    Text.ContainsLower(query, word);
  }

  /** A request without a body, or whose body object has no query, is answered
      with the fixed message and invokes nothing. */
  lemma MissingQueryNotUnderstood(event: map<string, Value>, env: map<string, string>,
                                  invoke: Call -> Result<Value>)
    requires "body" !in event || (event["body"].Obj? && "query" !in event["body"].fields)
    ensures Handle(event, env, invoke) == Ok(Turn(None, Reply(200, NOT_UNDERSTOOD)))
  {
  }
}

=== FILE: chunker.dfy ===
/** The sliding-window splitter of the ingestion service (`chunk_text`): windows
    of `chunkSize` characters taken every `chunkSize - overlap` characters, the
    last one cut short by the end of the text. */
module Chunker {

  const DEFAULT_CHUNK_SIZE: int := 1000
  const DEFAULT_OVERLAP: int := 150

  function Min(a: int, b: int): int {
    if a <= b then a else b
  }

  /** Python's normalisation of a slice bound against a length `n`: a negative
      bound counts from the end, and the result is clamped to `0..n`. */
  function SliceBound(i: int, n: nat): (r: nat)
    ensures r <= n
    ensures 0 <= i ==> r == Min(i, n)
    ensures i < 0 && 0 <= i + n ==> r == i + n
    ensures i + n < 0 ==> r == 0
  {
    if i < 0 then (if i + n < 0 then 0 else i + n) else Min(i, n)
  }

  /** Python's `s[lo:hi]`: the characters from the normalised `lo` up to the
      normalised `hi`, none when those bounds are reversed. */
  function Slice(s: string, lo: int, hi: int): (r: string)
    ensures SliceBound(lo, |s|) <= SliceBound(hi, |s|) ==> r == s[SliceBound(lo, |s|)..SliceBound(hi, |s|)]
    ensures SliceBound(hi, |s|) <= SliceBound(lo, |s|) ==> r == []
    ensures 0 <= lo <= hi ==> r == s[Min(lo, |s|)..Min(hi, |s|)]
    ensures 0 <= hi <= lo ==> r == []
  {
    var a, b := SliceBound(lo, |s|), SliceBound(hi, |s|);
    if a < b then s[a..b] else []
  }

  /** The chunks the loop still appends once `start` has been reached: one
      window per loop round, none once `start` is past the end. */
  function ChunksFrom(text: string, start: nat, chunkSize: int, step: int): (r: seq<string>)
    requires step > 0
    ensures |r| == 0 <==> |text| <= start
    ensures chunkSize > 0 ==> forall i :: 0 <= i < |r| ==> 0 < |r[i]| <= chunkSize
    decreases |text| - start
  {
    if start >= |text| then []
    else [Slice(text, start, start + chunkSize)] + ChunksFrom(text, start + step, chunkSize, step)
  }

  /** `chunk_text(text, chunk_size, overlap)`. The loop only ends when every
      round moves `start` forward, so the step `chunkSize - overlap` must be
      positive; the defaults 1000 and 150 give 850. Empty text gives no chunks,
      and with a positive window every chunk is non-empty and at most one window
      long. */
  function ChunkText(text: string, chunkSize: int, overlap: int): (r: seq<string>)
    requires chunkSize - overlap > 0
    ensures |r| == 0 <==> |text| == 0
    ensures chunkSize > 0 ==> forall i :: 0 <= i < |r| ==> 0 < |r[i]| <= chunkSize
  {
    ChunksFrom(text, 0, chunkSize, chunkSize - overlap)
  }

  /** Where window `i` begins relative to the first: `i` steps on. */
  function Offset(i: nat, step: int): int
    decreases i
  {
    if i == 0 then 0 else Offset(i - 1, step) + step
  }

  lemma {:induction false} OffsetIsProduct(i: nat, step: int)
    ensures Offset(i, step) == i * step
    decreases i
  {
    if i > 0 {
      OffsetIsProduct(i - 1, step);
      assert i * step == (i - 1) * step + step;
    }
  }

  /** Chunk `i` is the window that begins `i` steps after `start`. */
  lemma {:induction false} ChunkFromAt(text: string, start: nat, chunkSize: int, step: int, i: nat)
    requires step > 0
    requires i < |ChunksFrom(text, start, chunkSize, step)|
    ensures start + Offset(i, step) < |text|
    ensures ChunksFrom(text, start, chunkSize, step)[i]
         == Slice(text, start + Offset(i, step), start + Offset(i, step) + chunkSize)
    decreases i
  {
    if i > 0 {
      ChunkFromAt(text, start + step, chunkSize, step, i - 1);
    }
  }

  /** There is a chunk for every window start before the end of the text and for
      no other: `n` steps reach the end and `n - 1` steps do not. */
  lemma {:induction false} ChunkFromCount(text: string, start: nat, chunkSize: int, step: int)
    requires step > 0
    ensures var n := |ChunksFrom(text, start, chunkSize, step)|;
      && |text| - start <= Offset(n, step)
      && (n > 0 ==> Offset(n - 1, step) < |text| - start)
    decreases |text| - start
  {
    if start < |text| {
      var n' := |ChunksFrom(text, start + step, chunkSize, step)|;
      assert |ChunksFrom(text, start, chunkSize, step)| == n' + 1;
      ChunkFromCount(text, start + step, chunkSize, step);
    }
  }

  /** Chunk `i` of `chunk_text` is `text[i*step : i*step + chunk_size]`. */
  lemma ChunkAt(text: string, chunkSize: int, overlap: int, i: nat)
    requires chunkSize - overlap > 0
    requires i < |ChunkText(text, chunkSize, overlap)|
    ensures i * (chunkSize - overlap) < |text|
    ensures var start := i * (chunkSize - overlap);
      ChunkText(text, chunkSize, overlap)[i] == Slice(text, start, start + chunkSize)
  {
    ChunkFromAt(text, 0, chunkSize, chunkSize - overlap, i);
    OffsetIsProduct(i, chunkSize - overlap);
  }

  /** The same splitter written as the source's while loop. */
  method ChunkTextLoop(text: string, chunkSize: int, overlap: int) returns (chunks: seq<string>)
    requires chunkSize - overlap > 0
    ensures chunks == ChunkText(text, chunkSize, overlap)
  {
    var step := chunkSize - overlap;
    chunks := [];
    var start: nat := 0;
    while start < |text|
      invariant ChunksFrom(text, 0, chunkSize, step) == chunks + ChunksFrom(text, start, chunkSize, step)
      decreases |text| - start
    {
      var end := start + chunkSize;
      chunks := chunks + [Slice(text, start, end)];
      start := start + step;
    }
  }

  lemma MulMonotone(a: int, b: int, d: int)
    requires a <= b && d > 0
    ensures a * d <= b * d
  {
  }

  /** Integer quotient is characterised by its bracketing multiples. */
  lemma DivUnique(x: int, d: int, q: int)
    requires d > 0
    requires q * d <= x < (q + 1) * d
    ensures x / d == q
  {
    var q', r' := x / d, x % d;
    assert x == q' * d + r' && 0 <= r' < d;
    if q' > q {
      MulMonotone(q + 1, q', d);
    } else if q' < q {
      MulMonotone(q', q - 1, d);
    }
  }

  /** `n` is `ceil(len / step)` when `n` steps cover `len` and `n - 1` do not. */
  lemma CeilDiv(len: nat, step: int, n: nat)
    requires step > 0
    requires len <= n * step
    requires n > 0 ==> (n - 1) * step < len
    ensures n == (len + step - 1) / step
  {
    if n == 0 {
      DivUnique(step - 1, step, 0);
    } else {
      assert (n - 1) * step + step == n * step;
      assert (n + 1) * step == n * step + step;
      DivUnique(len + step - 1, step, n);
    }
  }

  /** The number of chunks is the length of the text divided by the step,
      rounded up. */
  lemma ChunkCount(text: string, chunkSize: int, overlap: int)
    requires chunkSize - overlap > 0
    ensures |ChunkText(text, chunkSize, overlap)| == (|text| + (chunkSize - overlap) - 1) / (chunkSize - overlap)
  {
    var step, n := chunkSize - overlap, |ChunkText(text, chunkSize, overlap)|;
    ChunkFromCount(text, 0, chunkSize, step);
    OffsetIsProduct(n, step);
    if n > 0 {
      OffsetIsProduct(n - 1, step);
    }
    CeilDiv(|text|, step, n);
  }

  /** With a positive window, chunk `i` is the plain slice
      `text[i*step .. min(i*step + chunkSize, |text|)]`: never empty and never
      longer than the window. */
  lemma ChunkBounds(text: string, chunkSize: int, overlap: int, i: nat)
    requires chunkSize - overlap > 0 && chunkSize > 0
    requires i < |ChunkText(text, chunkSize, overlap)|
    ensures var start := i * (chunkSize - overlap);
      && 0 <= start < |text|
      && ChunkText(text, chunkSize, overlap)[i] == text[start..Min(start + chunkSize, |text|)]
    ensures 0 < |ChunkText(text, chunkSize, overlap)[i]| <= chunkSize
  {
    var start := i * (chunkSize - overlap);
    MulMonotone(0, i, chunkSize - overlap);
    ChunkAt(text, chunkSize, overlap, i);
    assert ChunkText(text, chunkSize, overlap)[i] == Slice(text, start, start + chunkSize);
    assert Min(start, |text|) == start;
  }

  /** Neighbouring chunks overlap: when chunk `i` is a full window, its last
      `overlap` characters are the first `overlap` characters of chunk `i + 1`. */
  lemma ChunkOverlap(text: string, chunkSize: int, overlap: int, i: nat)
    requires 0 <= overlap < chunkSize
    requires i + 1 < |ChunkText(text, chunkSize, overlap)|
    requires |ChunkText(text, chunkSize, overlap)[i]| == chunkSize
    ensures |ChunkText(text, chunkSize, overlap)[i + 1]| >= overlap
    ensures ChunkText(text, chunkSize, overlap)[i][chunkSize - overlap..]
         == ChunkText(text, chunkSize, overlap)[i + 1][..overlap]
  {
    var step, r := chunkSize - overlap, ChunkText(text, chunkSize, overlap);
    var s := i * step;
    assert (i + 1) * step == s + step;
    ChunkBounds(text, chunkSize, overlap, i);
    ChunkBounds(text, chunkSize, overlap, i + 1);
    assert s + chunkSize <= |text|;
    assert r[i] == text[s..s + chunkSize];
    assert r[i][chunkSize - overlap..] == text[s + step..s + chunkSize];
  }

  /** Puts chunks back together: the first `step` characters of every chunk but
      the last, then the whole last chunk. */
  function Reassemble(chunks: seq<string>, step: nat): string
    decreases |chunks|
  {
    if |chunks| == 0 then ""
    else if |chunks| == 1 then chunks[0]
    else chunks[0][..Min(step, |chunks[0]|)] + Reassemble(chunks[1..], step)
  }

  /** One round of the loop: the window at `start`, then the rest. */
  lemma ChunksFromStep(text: string, start: nat, chunkSize: int, step: int)
    requires 0 < step <= chunkSize && start < |text|
    ensures ChunksFrom(text, start, chunkSize, step)
         == [text[start..Min(start + chunkSize, |text|)]] + ChunksFrom(text, start + step, chunkSize, step)
  {
  }

  /** Reassembling a chunk followed by more chunks keeps `step` characters of
      the first. */
  lemma ReassembleCons(first: string, rest: seq<string>, step: nat)
    requires |rest| > 0 && step <= |first|
    ensures Reassemble([first] + rest, step) == first[..step] + Reassemble(rest, step)
  {
    var r := [first] + rest;
    assert r[0] == first && r[1..] == rest;
  }

  lemma SliceSplit(t: string, a: nat, b: nat)
    requires a <= b <= |t|
    ensures t[a..] == t[a..b] + t[b..]
  {
  }

  lemma {:induction false} ReassembleFrom(text: string, start: nat, chunkSize: int, step: int)
    requires 0 < step <= chunkSize
    requires start <= |text|
    ensures Reassemble(ChunksFrom(text, start, chunkSize, step), step) == text[start..]
    decreases |text| - start
  {
    if start < |text| {
      var rest := ChunksFrom(text, start + step, chunkSize, step);
      var first := text[start..Min(start + chunkSize, |text|)];
      ChunksFromStep(text, start, chunkSize, step);
      if |rest| == 0 {
        assert Reassemble([first], step) == first;
        assert first == text[start..];
      } else {
        assert start + step < |text|;
        ReassembleCons(first, rest, step);
        assert first[..step] == text[start..start + step];
        ReassembleFrom(text, start + step, chunkSize, step);
        SliceSplit(text, start, start + step);
      }
    }
  }

  /** Round trip: with `0 <= overlap < chunkSize`, dropping each overlap again
      gives back the text. */
  lemma RoundTrip(text: string, chunkSize: int, overlap: int)
    requires 0 <= overlap < chunkSize
    ensures Reassemble(ChunkText(text, chunkSize, overlap), chunkSize - overlap) == text
  {
    ReassembleFrom(text, 0, chunkSize, chunkSize - overlap);
  }
}

=== FILE: consistency.dfy ===
/** How the generated data and the services fit together: a generated claim,
    checked against the generated document rules, is reported complete exactly
    when the generator chose to submit every document, and otherwise misses
    exactly the last one; every generated policy is found by the policy-details
    service under its id, as the record the generator wrote. The files the
    generator writes are the JSON forms below. */
module Consistency {
  import opened Wrappers
  import opened Json
  import ReadOnceCache
  import DataGeneration
  import DocumentRequirements
  import PolicyDetails

  /** The record `generate_policies` stores for a policy. */
  function PolicyToJson(p: DataGeneration.Policy): (v: Value)
    ensures v.Obj? && "policy_id" in v.fields && v.fields["policy_id"] == Str(p.policyId)
    ensures "state" in v.fields && v.fields["state"] == Str(p.state)
  {
    Obj(map[
      "policy_id" := Str(p.policyId),
      "customer_name" := Str(p.customerName),
      "state" := Str(p.state),
      "coverage_limit" := Num(p.coverageLimit),
      "deductible" := Num(p.deductible),
      "policy_type" := Str(p.policyType),
      "active" := Bool(p.active)])
  }

  /** `policies.json` as written from the generated policies. */
  function PoliciesFile(m: map<string, DataGeneration.Policy>): (f: PolicyDetails.Policies)
    ensures f.Keys == m.Keys
    ensures forall k :: k in m ==> f[k] == PolicyToJson(m[k])
  {
    map k | k in m :: PolicyToJson(m[k])
  }

  /** Every document rule names its documents without repeating the last one. */
  lemma RulesEndInNewDocument(lossType: string)
    requires lossType in DataGeneration.DOCUMENT_RULES
    ensures var required := DataGeneration.DOCUMENT_RULES[lossType];
      |required| > 0 && required[|required| - 1] !in required[..|required| - 1]
  {
  }

  /** A generated claim checked against the generated rules: the report lists
      the rules of the claim's loss type, is complete exactly when all documents
      were submitted, and otherwise misses exactly the last one; the cached rules
      are used as they are. */
  lemma GeneratedClaimChecked(policy: DataGeneration.Policy, d: DataGeneration.ClaimDraw,
                              store: Result<DocumentRequirements.Rules>)
    requires policy.policyType in DataGeneration.LOSS_TYPES
    ensures var c := DataGeneration.GenerateClaim(policy, d).value;
      var required := DataGeneration.DOCUMENT_RULES[c.lossType];
      var s := DocumentRequirements.Handle(
        DocumentRequirements.Request(c.lossType, Some(c.documentsSubmitted)),
        ReadOnceCache.Loaded(DataGeneration.DOCUMENT_RULES), store);
      && !s.fetched
      && s.response == DocumentRequirements.Report(
           required,
           if d.allDocuments then [] else [required[|required| - 1]],
           d.allDocuments)
  {
    var c := DataGeneration.GenerateClaim(policy, d).value;
    var required := DataGeneration.DOCUMENT_RULES[c.lossType];
    RulesEndInNewDocument(c.lossType);
    DocumentRequirements.CheckedAgainstCachedRules(c.lossType, c.documentsSubmitted, DataGeneration.DOCUMENT_RULES, store);
    if d.allDocuments {
      assert c.documentsSubmitted == required;
      DocumentRequirements.AllSubmitted(required);
    } else {
      assert c.documentsSubmitted == required[..|required| - 1];
      DocumentRequirements.AllButLastSubmitted(required);
    }
  }

  /** Every generated policy is found under its id, and the service answers the
      record the generator wrote, without reading the file again. */
  lemma GeneratedPolicyFound(draw: nat -> DataGeneration.PolicyDraw, i: nat,
                             store: Result<PolicyDetails.Policies>)
    requires i < DataGeneration.NUM_POLICIES
    ensures var file := PoliciesFile(DataGeneration.GeneratePolicies(draw));
      PolicyDetails.Lookup(DataGeneration.IdAt(draw, i), ReadOnceCache.Loaded(file), store)
        == PolicyDetails.Step(
             PolicyDetails.Record(PolicyToJson(DataGeneration.MakePolicy(i, draw(i)))),
             ReadOnceCache.Loaded(file), false)
  {
    var m := DataGeneration.GeneratePolicies(draw);
    var file := PoliciesFile(m);
    var id := DataGeneration.IdAt(draw, i);
    assert id in m && file[id] == PolicyToJson(DataGeneration.MakePolicy(i, draw(i)));
    assert id != "";
    assert Truthy(file[id]);
    PolicyDetails.KnownPolicyReturned(id, file, store);
  }

  /** A claim generated for any of the generated policies, as `generate_claims`
      does, refers to a policy the service finds: looking its policy id up
      answers that policy's record, whose state is the claim's state. */
  lemma ClaimPolicyFound(draw: nat -> DataGeneration.PolicyDraw, i: nat, d: DataGeneration.ClaimDraw,
                         store: Result<PolicyDetails.Policies>)
    requires i < DataGeneration.NUM_POLICIES
    ensures DataGeneration.GenerateClaim(DataGeneration.MakePolicy(i, draw(i)), d).Ok?
    ensures var p := DataGeneration.MakePolicy(i, draw(i));
      var r := DataGeneration.GenerateClaim(p, d);
      var file := PoliciesFile(DataGeneration.GeneratePolicies(draw));
      r.Ok? ==>
      var c := r.value;
      && c.policyId == DataGeneration.IdAt(draw, i)
      && PolicyDetails.Lookup(c.policyId, ReadOnceCache.Loaded(file), store)
         == PolicyDetails.Step(PolicyDetails.Record(PolicyToJson(p)), ReadOnceCache.Loaded(file), false)
      && PolicyToJson(p).fields["state"] == Str(c.state)
  {
    DataGeneration.GeneratedPolicyHasClaims(i, draw(i), d);
    GeneratedPolicyFound(draw, i, store);
  }
}

=== FILE: data_generation.dfy ===
/** The synthetic data behind the services: fifty policies and claims against
    them, with the tables that tie a policy type to its loss types and a loss
    type to the documents it requires. Every random choice is an explicit
    draw: a natural number that selects an element of the list being chosen
    from or gives the uuid or the damage, a boolean for `random.random() < 0.7`,
    and a string for the fake name. So each property below holds for every
    outcome of the generator. */
module DataGeneration {
  import opened Wrappers
  import Text

  const NUM_POLICIES: nat := 50

  const STATES: seq<string> := ["FL", "CA", "TX", "NY", "IL"]
  const ID_PREFIXES: seq<string> := ["AUTO", "HOME"]
  const COVERAGE_LIMITS: seq<int> := [10000, 15000, 25000, 50000]
  const DEDUCTIBLES: seq<int> := [500, 1000, 2000]
  /** `random.choice([True, True, True, False])`. */
  const ACTIVE_CHOICES: seq<bool> := [true, true, true, false]

  const FIRST_POLICY_NUMBER: nat := 10000
  const MIN_DAMAGE: int := 1000
  const MAX_DAMAGE: int := 60000

  const LOSS_TYPES: map<string, seq<string>> := map[
    "auto" := ["auto_collision", "auto_theft"],
    "home" := ["home_fire", "water_damage"]
  ]

  const DOCUMENT_RULES: map<string, seq<string>> := map[
    "auto_collision" := ["photo_front_damage.jpg", "repair_invoice.pdf"],
    "auto_theft" := ["police_report.pdf"],
    "home_fire" := ["fire_report.pdf", "damage_photos.zip"],
    "water_damage" := ["plumber_report.pdf", "damage_photos.zip"]
  ]

  /** `random.choice(xs)` with the choice made by `draw`. */
  function Pick<T>(xs: seq<T>, draw: nat): (x: T)
    requires |xs| > 0
    ensures x in xs
  {
    xs[draw % |xs|]
  }

  /** Every element can be chosen: draw `k` picks element `k`. */
  lemma PickReachable<T>(xs: seq<T>, k: nat)
    requires k < |xs|
    ensures Pick(xs, k) == xs[k]
  {
  }

  /** Python's `xs[:-1]`. */
  function DropLast<T>(xs: seq<T>): (r: seq<T>)
    ensures |xs| > 0 ==> |r| == |xs| - 1 && xs == r + [xs[|xs| - 1]]
    ensures |xs| == 0 ==> r == []
  {
    if |xs| == 0 then [] else xs[..|xs| - 1]
  }

  datatype Policy = Policy(
    policyId: string,
    customerName: string,
    state: string,
    coverageLimit: int,
    deductible: int,
    policyType: string,
    active: bool)

  /** The draws made for one policy; `customerName` stands for the fake name. */
  datatype PolicyDraw = PolicyDraw(
    prefix: nat,
    customerName: string,
    state: nat,
    coverageLimit: nat,
    deductible: nat,
    active: nat)

  /** `f"{prefix}-{10000 + i}"`: the prefix, a dash, then the decimal digits
      of the policy number. */
  function PolicyId(prefix: string, i: nat): (id: string)
    ensures |id| > |prefix| + 1
    ensures id[..|prefix|] == prefix && id[|prefix|] == '-'
    ensures forall k :: |prefix| < k < |id| ==> Text.IsDigit(id[k])
    ensures Text.DecimalValue(id[|prefix| + 1..]) == FIRST_POLICY_NUMBER + i
    ensures id[|prefix| + 1] != '0'
  {
    var digits := Text.NatToString(FIRST_POLICY_NUMBER + i);
    Text.NatToStringValue(FIRST_POLICY_NUMBER + i);
    assert (prefix + "-" + digits)[|prefix| + 1..] == digits;
    prefix + "-" + digits
  }

  /** The shape every generated policy has. */
  ghost predicate ValidPolicy(p: Policy) {
    && (exists i: nat :: p.policyId == PolicyId("AUTO", i) || p.policyId == PolicyId("HOME", i))
    && (p.policyType == "auto" <==> p.policyId[..4] == "AUTO")
    && (p.policyType == "auto" || p.policyType == "home")
    && p.policyType in LOSS_TYPES
    && p.state in STATES
    && p.coverageLimit in COVERAGE_LIMITS
    && p.deductible in DEDUCTIBLES
  }

  /** Iteration `i` of the loop in `generate_policies`. */
  function MakePolicy(i: nat, d: PolicyDraw): (p: Policy)
    ensures p.policyId == PolicyId(Pick(ID_PREFIXES, d.prefix), i)
    ensures p.policyType == "auto" <==> Pick(ID_PREFIXES, d.prefix) == "AUTO"
    ensures p.policyType == "auto" || p.policyType == "home"
    ensures p.customerName == d.customerName
    ensures p.state in STATES && p.coverageLimit in COVERAGE_LIMITS && p.deductible in DEDUCTIBLES
  {
    var prefix := Pick(ID_PREFIXES, d.prefix);
    var policyType := if prefix == "AUTO" then "auto" else "home";
    Policy(
      PolicyId(prefix, i),
      d.customerName,
      Pick(STATES, d.state),
      Pick(COVERAGE_LIMITS, d.coverageLimit),
      Pick(DEDUCTIBLES, d.deductible),
      policyType,
      Pick(ACTIVE_CHOICES, d.active))
  }

  /** Every iteration produces a policy of the generated shape. */
  lemma MakePolicyValid(i: nat, d: PolicyDraw)
    ensures ValidPolicy(MakePolicy(i, d))
  {
  }

  /** Policy ids of different iterations differ, and the prefix is recovered
      from the id. */
  lemma PolicyIdInjective(a: string, i: nat, b: string, j: nat)
    requires a in ID_PREFIXES && b in ID_PREFIXES
    requires PolicyId(a, i) == PolicyId(b, j)
    ensures i == j && a == b
  {
    var s := PolicyId(a, i);
    assert s[..4] == a && PolicyId(b, j)[..4] == b;
    assert s[5..] == Text.NatToString(FIRST_POLICY_NUMBER + i);
    assert PolicyId(b, j)[5..] == Text.NatToString(FIRST_POLICY_NUMBER + j);
    Text.NatToStringInjective(FIRST_POLICY_NUMBER + i, FIRST_POLICY_NUMBER + j);
  }

  /** The id iteration `i` produces. */
  function IdAt(draw: nat -> PolicyDraw, i: nat): (id: string)
    ensures id == MakePolicy(i, draw(i)).policyId
  {
    PolicyId(Pick(ID_PREFIXES, draw(i).prefix), i)
  }

  lemma IdAtInjective(draw: nat -> PolicyDraw, i: nat, j: nat)
    requires IdAt(draw, i) == IdAt(draw, j)
    ensures i == j
  {
    PolicyIdInjective(Pick(ID_PREFIXES, draw(i).prefix), i, Pick(ID_PREFIXES, draw(j).prefix), j);
  }

  /** The dictionary a loop `for i in range(n): d[key(i)] = value(i)` builds. */
  function BuildMap<K, V>(n: nat, key: nat -> K, value: nat -> V): (m: map<K, V>)
    ensures forall i :: 0 <= i < n ==> key(i) in m
    decreases n
  {
    if n == 0 then map[] else BuildMap(n - 1, key, value)[key(n - 1) := value(n - 1)]
  }

  /** Every entry of the dictionary was written by some iteration: `i` is the
      last one writing key `k`. */
  lemma {:induction false} BuildMapEntry<K, V>(n: nat, key: nat -> K, value: nat -> V, k: K)
    returns (i: nat)
    requires k in BuildMap(n, key, value)
    ensures i < n && k == key(i)
    decreases n
  {
    if k == key(n - 1) {
      i := n - 1;
    } else {
      i := BuildMapEntry(n - 1, key, value, k);
    }
  }

  /** When the keys of different iterations differ, nothing is overwritten:
      there is one entry per iteration, holding that iteration's value. */
  lemma {:induction false} BuildMapDistinct<K, V>(n: nat, key: nat -> K, value: nat -> V)
    requires forall i, j :: 0 <= i < j < n ==> key(i) != key(j)
    ensures |BuildMap(n, key, value)| == n
    ensures forall i :: 0 <= i < n ==> BuildMap(n, key, value)[key(i)] == value(i)
    decreases n
  {
    if n > 0 {
      var prev := BuildMap(n - 1, key, value);
      BuildMapDistinct(n - 1, key, value);
      if key(n - 1) in prev {
        var i := BuildMapEntry(n - 1, key, value, key(n - 1));
      }
    }
  }

  /** The loop of `generate_policies` as the key and the value each iteration
      writes. */
  function IdOf(draw: nat -> PolicyDraw): nat -> string {
    (i: nat) => IdAt(draw, i)
  }

  function PolicyOf(draw: nat -> PolicyDraw): nat -> Policy {
    (i: nat) => MakePolicy(i, draw(i))
  }

  /** The policies generated by all iterations, each under its own id. */
  lemma GeneratedPolicyEntries(draw: nat -> PolicyDraw)
    ensures var m := BuildMap(NUM_POLICIES, IdOf(draw), PolicyOf(draw));
      && |m| == NUM_POLICIES
      && forall i :: 0 <= i < NUM_POLICIES ==> IdAt(draw, i) in m && m[IdAt(draw, i)] == MakePolicy(i, draw(i))
  {
    var key, value := IdOf(draw), PolicyOf(draw);
    forall i, j | 0 <= i < j < NUM_POLICIES && key(i) == key(j)
      ensures false
    {
      IdAtInjective(draw, i, j);
    }
    BuildMapDistinct(NUM_POLICIES, key, value);
    var m := BuildMap(NUM_POLICIES, key, value);
    forall i | 0 <= i < NUM_POLICIES
      ensures IdAt(draw, i) in m && m[IdAt(draw, i)] == MakePolicy(i, draw(i))
    {
      assert key(i) == IdAt(draw, i) && value(i) == MakePolicy(i, draw(i));
    }
  }

  /** Only generated policies are stored, each under its own id. */
  lemma GeneratedPoliciesValid(draw: nat -> PolicyDraw)
    ensures var m := BuildMap(NUM_POLICIES, IdOf(draw), PolicyOf(draw));
      forall k :: k in m ==> m[k].policyId == k && ValidPolicy(m[k])
  {
    var key, value := IdOf(draw), PolicyOf(draw);
    var m := BuildMap(NUM_POLICIES, key, value);
    GeneratedPolicyEntries(draw);
    forall k | k in m
      ensures m[k].policyId == k && ValidPolicy(m[k])
    {
      var i := BuildMapEntry(NUM_POLICIES, key, value, k);
      assert k == IdAt(draw, i) && m[k] == MakePolicy(i, draw(i));
      MakePolicyValid(i, draw(i));
    }
  }

  /** `generate_policies()`: exactly `NUM_POLICIES` policies with distinct ids
      `AUTO-n` or `HOME-n`, `n = 10000 + i`; each stored under its own id, of
      the type its prefix names, with state, coverage limit and deductible from
      their lists. */
  function GeneratePolicies(draw: nat -> PolicyDraw): (m: map<string, Policy>)
    ensures |m| == NUM_POLICIES
    ensures forall k :: k in m ==> m[k].policyId == k && ValidPolicy(m[k])
    ensures forall i :: 0 <= i < NUM_POLICIES ==>
      IdAt(draw, i) in m && m[IdAt(draw, i)] == MakePolicy(i, draw(i))
  {
    GeneratedPolicyEntries(draw);
    GeneratedPoliciesValid(draw);
    BuildMap(NUM_POLICIES, IdOf(draw), PolicyOf(draw))
  }

  datatype Claim = Claim(
    claimId: string,
    policyId: string,
    lossType: string,
    state: string,
    estimatedDamage: int,
    documentsSubmitted: seq<string>,
    status: string)

  /** The draws made for one claim: the uuid whose hex form starts the claim
      id, the loss type, whether `random.random() < 0.7` (all documents
      submitted), and the damage. */
  datatype ClaimDraw = ClaimDraw(uuid: nat, lossType: nat, allDocuments: bool, damage: nat)

  /** `f"CLM-{uuid.hex[:8].upper()}"`; `uuid.hex` is the 32 lower-case hex
      digits of the 128-bit uuid. */
  function ClaimId(uuid: nat): (id: string)
    ensures |id| == 12 && id[..4] == "CLM-"
    ensures forall i :: 4 <= i < 12 ==> Text.IsUpperHexDigit(id[i])
  {
    var hex := Text.HexDigits(uuid, 32)[..8];
    Text.UpperHex(hex);
    "CLM-" + Text.Upper(hex)
  }

  /** `random.randint(1000, 60000)`: both ends included. */
  function Damage(draw: nat): (d: int)
    ensures MIN_DAMAGE <= d <= MAX_DAMAGE
  {
    MIN_DAMAGE + draw % (MAX_DAMAGE - MIN_DAMAGE + 1)
  }

  /** Every amount in the range can be drawn. */
  lemma DamageReachable(amount: int)
    requires MIN_DAMAGE <= amount <= MAX_DAMAGE
    ensures Damage((amount - MIN_DAMAGE) as nat) == amount
  {
  }

  /** Every loss type of every policy type has document rules. */
  lemma LossTypesHaveRules()
    ensures forall t, l :: t in LOSS_TYPES && l in LOSS_TYPES[t] ==> l in DOCUMENT_RULES
  {
  }

  /** `generate_claim(policy)`. A policy type without loss types raises
      `KeyError` at `LOSS_TYPES[...]`; no generated policy has one. Otherwise the
      claim is against the policy, in its state, for one of its type's loss
      types, with every required document submitted or all but the last. */
  function GenerateClaim(policy: Policy, d: ClaimDraw): (r: Result<Claim>)
    ensures r.Err? <==> policy.policyType !in LOSS_TYPES
    ensures r.Ok? ==> var c := r.value;
      && c.policyId == policy.policyId && c.state == policy.state
      && c.status == "submitted"
      && c.claimId == ClaimId(d.uuid)
      && c.lossType in LOSS_TYPES[policy.policyType] && c.lossType in DOCUMENT_RULES
      && MIN_DAMAGE <= c.estimatedDamage <= MAX_DAMAGE
      && var required := DOCUMENT_RULES[c.lossType];
      && c.documentsSubmitted <= required
      && |required| - |c.documentsSubmitted| <= 1
      && (c.documentsSubmitted == required <==> d.allDocuments)
  {
    if policy.policyType !in LOSS_TYPES then Err("KeyError: '" + policy.policyType + "'")
    else
      var lossType := Pick(LOSS_TYPES[policy.policyType], d.lossType);
      LossTypesHaveRules();
      var required := DOCUMENT_RULES[lossType];
      var submitted := if d.allDocuments then required else DropLast(required);
      Ok(Claim(ClaimId(d.uuid), policy.policyId, lossType, policy.state, Damage(d.damage), submitted, "submitted"))
  }

  /** Every generated policy can have claims generated for it. */
  lemma GeneratedPolicyHasClaims(i: nat, d: PolicyDraw, c: ClaimDraw)
    ensures GenerateClaim(MakePolicy(i, d), c).Ok?
  {
  }
}

=== FILE: document_requirements.dfy ===
/** The document-requirements service: given a claim's loss type and the
    documents already submitted, it looks the loss type up in the stored
    document rules and reports which required documents are still missing. */
module DocumentRequirements {
  import opened Wrappers
  import opened Json
  import ReadOnceCache

  /** `document_rules.json`: each loss type and the documents it requires. */
  type Rules = map<string, seq<string>>

  const LOSS_TYPE_REQUIRED: string := "loss_type is required"

  /** What the handler returns: `{"error": message}` or the report
      `{"required_documents", "missing_documents", "complete"}`. */
  datatype Response =
    | Error(message: string)
    | Report(required: seq<string>, missing: seq<string>, complete: bool)

  /** One handler call: the response, the rules cache it leaves, and whether it
      read the rules file. */
  datatype Step = Step(response: Response, cache: ReadOnceCache.Cache<Rules>, fetched: bool)

  /** `a` is `b` with some elements left out, the rest kept in order. */
  predicate IsSubsequence(a: seq<string>, b: seq<string>)
    decreases |b|
  {
    |a| == 0 || (|b| > 0 && ((a[0] == b[0] && IsSubsequence(a[1..], b[1..])) || IsSubsequence(a, b[1..])))
  }

  /** `[doc for doc in required if doc not in submitted]`, evaluated left to
      right: the first `in` test that raises ends the comprehension. The result
      keeps, in order, exactly the required documents not found in `submitted`. */
  function Missing(required: seq<string>, submitted: Value): (r: Result<seq<string>>)
    ensures r.Err? <==> |required| > 0 && (submitted.Null? || submitted.Bool? || submitted.Num?)
    ensures r.Ok? ==> IsSubsequence(r.value, required)
    ensures r.Ok? ==> forall d :: d in r.value <==> d in required && In(d, submitted) == Ok(false)
    ensures r.Ok? ==> forall d ::
      multiset(r.value)[d] == if In(d, submitted) == Ok(false) then multiset(required)[d] else 0
    decreases |required|
  {
    if |required| == 0 then Ok([])
    else
      var present :- In(required[0], submitted);
      var rest := Missing(required[1..], submitted).value;
      assert required == [required[0]] + required[1..];
      assert multiset(required) == multiset{required[0]} + multiset(required[1..]);
      if present then Ok(rest)
      else
        assert ([required[0]] + rest)[1..] == rest;
        assert multiset([required[0]] + rest) == multiset{required[0]} + multiset(rest);
        Ok([required[0]] + rest)
  }

  /** `event.get("loss_type")`. */
  function LossTypeOf(event: map<string, Value>): Value {
    GetOr(event, "loss_type", Null)
  }

  /** `event.get("documents_submitted", [])`. */
  function SubmittedOf(event: map<string, Value>): Value {
    GetOr(event, "documents_submitted", Arr([]))
  }

  /** `rules.get(loss_type, [])` once the key is known to be hashable: the
      documents stored for a string loss type, none for anything else. */
  function RequiredFor(rules: Rules, lossType: Value): (r: seq<string>)
    requires Hashable(lossType)
    ensures DictGet(rules, lossType).value.Some? ==> r == DictGet(rules, lossType).value.value
    ensures DictGet(rules, lossType).value.None? ==> r == []
  {
    if lossType.Str? && lossType.s in rules then rules[lossType.s] else []
  }

  /** `lambda_handler`. `store` is what reading `document_rules.json` would give
      if the cache is empty. */
  function Handle(event: map<string, Value>, cache: ReadOnceCache.Cache<Rules>, store: Result<Rules>)
    : (s: Step)
    ensures !Truthy(LossTypeOf(event)) ==> s == Step(Error(LOSS_TYPE_REQUIRED), cache, false)
    ensures Truthy(LossTypeOf(event)) ==> (s.fetched <==> cache.Unloaded?)
    ensures cache.Loaded? ==> s.cache == cache
    ensures Truthy(LossTypeOf(event)) ==> s.cache == ReadOnceCache.Get(cache, store).cache
    ensures Truthy(LossTypeOf(event)) && ReadOnceCache.Get(cache, store).result.Err? ==>
      s.response == Error(ReadOnceCache.Get(cache, store).result.message)
    ensures
      && Truthy(LossTypeOf(event)) && s.cache.Loaded? && Hashable(LossTypeOf(event))
      && Missing(RequiredFor(s.cache.value, LossTypeOf(event)), SubmittedOf(event)).Ok?
      ==> s.response.Report?
    ensures s.response.Report? ==>
      && s.cache.Loaded?
      && Hashable(LossTypeOf(event))
      && s.response.required == RequiredFor(s.cache.value, LossTypeOf(event))
      && Missing(s.response.required, SubmittedOf(event)) == Ok(s.response.missing)
      && (s.response.complete <==> |s.response.missing| == 0)
  {
    var lossType := LossTypeOf(event);
    if !Truthy(lossType) then Step(Error(LOSS_TYPE_REQUIRED), cache, false)
    else
      var load := ReadOnceCache.Get(cache, store);
      match load.result
      case Err(e) => Step(Error(e), load.cache, load.fetched)
      case Ok(rules) =>
        match DictGet(rules, lossType)
        case Err(e) => Step(Error(e), load.cache, load.fetched)
        case Ok(found) =>
          var required := if found.Some? then found.value else [];
          match Missing(required, SubmittedOf(event))
          case Err(e) => Step(Error(e), load.cache, load.fetched)
          case Ok(missing) => Step(Report(required, missing, |missing| == 0), load.cache, load.fetched)
  }

  /** The event a well-formed caller sends: a loss type and, optionally, the list
      of submitted documents. */
  function Request(lossType: string, submitted: Option<seq<string>>): map<string, Value> {
    match submitted
    case None => map["loss_type" := Str(lossType)]
    case Some(docs) => map["loss_type" := Str(lossType), "documents_submitted" := StrList(docs)]
  }

  /** Against a list of names, "missing" means "required and not in the list". */
  lemma MissingFromList(required: seq<string>, docs: seq<string>)
    ensures Missing(required, StrList(docs)).Ok?
    ensures forall d :: d in Missing(required, StrList(docs)).value <==> d in required && d !in docs
  {
  }

  /** Nothing submitted: every required document is missing, in order. */
  lemma {:induction false} NothingSubmitted(required: seq<string>)
    ensures Missing(required, Arr([])) == Ok(required)
    decreases |required|
  {
    if |required| > 0 {
      NothingSubmitted(required[1..]);
      assert [required[0]] + required[1..] == required;
    }
  }

  /** A missing or empty loss type is rejected without reading the rules. */
  lemma LossTypeRequired(submitted: Option<seq<string>>, cache: ReadOnceCache.Cache<Rules>, store: Result<Rules>)
    ensures Handle(Request("", submitted), cache, store) == Step(Error(LOSS_TYPE_REQUIRED), cache, false)
    ensures Handle(map[], cache, store) == Step(Error(LOSS_TYPE_REQUIRED), cache, false)
  {
  }

  /** For a well-formed request with rules available, the report lists the
      rules' documents for the loss type (none for an unknown one), and is
      complete exactly when every one of them was submitted. */
  lemma CompleteIffAllSubmitted(lossType: string, docs: seq<string>, rules: Rules, store: Result<Rules>)
    requires lossType != ""
    ensures var s := Handle(Request(lossType, Some(docs)), ReadOnceCache.Loaded(rules), store);
      && s.response.Report?
      && !s.fetched
      && s.response.required == (if lossType in rules then rules[lossType] else [])
      && (forall d :: d in s.response.missing <==> d in s.response.required && d !in docs)
      && (s.response.complete <==> forall d :: d in s.response.required ==> d in docs)
  {
    var required := if lossType in rules then rules[lossType] else [];
    MissingFromList(required, docs);
    var missing := Missing(required, StrList(docs)).value;
    if |missing| > 0 {
      assert missing[0] in missing;
    }
  }

  /** With the rules cached, a well-formed request for a known loss type is
      answered from those rules without reading: the report lists the rules'
      documents and the missing ones among them. */
  lemma CheckedAgainstCachedRules(lossType: string, docs: seq<string>, rules: Rules, store: Result<Rules>)
    requires lossType != "" && lossType in rules
    ensures Missing(rules[lossType], StrList(docs)).Ok?
    ensures var missing := Missing(rules[lossType], StrList(docs)).value;
      Handle(Request(lossType, Some(docs)), ReadOnceCache.Loaded(rules), store)
        == Step(Report(rules[lossType], missing, |missing| == 0), ReadOnceCache.Loaded(rules), false)
  {
  }

  /** An unknown loss type requires nothing, so the report is complete even with
      nothing submitted. */
  lemma UnknownLossTypeComplete(lossType: string, submitted: Option<seq<string>>, rules: Rules,
                                store: Result<Rules>)
    requires lossType != "" && lossType !in rules
    ensures Handle(Request(lossType, submitted), ReadOnceCache.Loaded(rules), store).response
         == Report([], [], true)
  {
  }

  /** Without `documents_submitted` every required document is reported
      missing. */
  lemma AbsentSubmissionMissesAll(lossType: string, rules: Rules, store: Result<Rules>)
    requires lossType in rules && lossType != ""
    ensures Handle(Request(lossType, None), ReadOnceCache.Loaded(rules), store).response
         == Report(rules[lossType], rules[lossType], |rules[lossType]| == 0)
  {
    NothingSubmitted(rules[lossType]);
  }

  /** The first check reads the rules; a second one reuses what was read and
      does not read again, whatever the store would now answer. */
  lemma SecondCheckUsesCache(first: string, second: string, docs: Option<seq<string>>, rules: Rules,
                             later: Result<Rules>)
    requires first != "" && second != ""
    ensures var s1 := Handle(Request(first, docs), ReadOnceCache.Unloaded, Ok(rules));
      var s2 := Handle(Request(second, docs), s1.cache, later);
      && s1.fetched && !s2.fetched
      && s2.cache == ReadOnceCache.Loaded(rules)
      && s2 == Handle(Request(second, docs), ReadOnceCache.Loaded(rules), Ok(rules))
  {
  }

  /** Required documents found in the submitted list are skipped: a leading run
      of `k` submitted documents does not change what is missing. */
  lemma {:induction false} MissingSkipsSubmitted(required: seq<string>, docs: seq<string>, k: nat)
    requires k <= |required|
    requires forall j :: 0 <= j < k ==> required[j] in docs
    ensures Missing(required, StrList(docs)) == Missing(required[k..], StrList(docs))
    decreases k
  {
    if k > 0 {
      InStrList(required[0], docs);
      assert required[1..][k - 1..] == required[k..];
      MissingSkipsSubmitted(required[1..], docs, k - 1);
    }
  }

  /** Submitting every required document leaves nothing missing. */
  lemma AllSubmitted(required: seq<string>)
    ensures Missing(required, StrList(required)) == Ok([])
  {
    MissingSkipsSubmitted(required, required, |required|);
  }

  /** Submitting all but the last required document, when that one is not also
      earlier in the list, leaves exactly it missing. */
  lemma AllButLastSubmitted(required: seq<string>)
    requires |required| > 0
    requires required[|required| - 1] !in required[..|required| - 1]
    ensures Missing(required, StrList(required[..|required| - 1])) == Ok([required[|required| - 1]])
  {
    var n := |required|;
    var docs := required[..n - 1];
    MissingSkipsSubmitted(required, docs, n - 1);
    assert required[n - 1..] == [required[n - 1]];
    MissingOne(required[n - 1], docs);
  }

  /** A single required document that was not submitted is missing. */
  lemma MissingOne(doc: string, docs: seq<string>)
    requires doc !in docs
    ensures Missing([doc], StrList(docs)) == Ok([doc])
  {
    var required := [doc];
    InStrList(doc, docs);
    assert required[0] == doc && required[1..] == [];
    assert In(required[0], StrList(docs)) == Ok(false);
    assert Missing(required[1..], StrList(docs)) == Ok([]);
    assert [required[0]] + [] == required;
  }
}

=== FILE: json.dfy ===
/** Decoded JSON values as the Python services see them after `json.loads`, with
    the three pieces of Python semantics the handlers depend on: truthiness
    (`if not x`), `dict.get` on a dict whose keys are all strings, and the `in`
    operator with a string on the left. */
module Json {
  import opened Wrappers
  import Text

  datatype Value =
    | Null
    | Bool(b: bool)
    | Num(n: int)
    | Str(s: string)
    | Arr(items: seq<Value>)
    | Obj(fields: map<string, Value>)

  /** Python's truth value: `None`, `False`, `0`, `""`, `[]` and `{}` are false,
      and every other value is true. */
  predicate Truthy(v: Value)
    ensures !Truthy(v) <==> v in {Null, Bool(false), Num(0), Str(""), Arr([]), Obj(map[])}
  {
    match v
    case Null => false
    case Bool(b) => b
    case Num(n) => n != 0
    case Str(s) => |s| > 0
    case Arr(items) => |items| > 0
    case Obj(fields) => |fields| > 0
  }

  /** Name of the Python type a decoded value has. */
  function TypeName(v: Value): string {
    match v
    case Null => "NoneType"
    case Bool(_) => "bool"
    case Num(_) => "int"
    case Str(_) => "str"
    case Arr(_) => "list"
    case Obj(_) => "dict"
  }

  /** Lists and dicts cannot be dict keys. */
  predicate Hashable(v: Value) {
    !v.Arr? && !v.Obj?
  }

  /** `d.get(k)` on a decoded dict (all of its keys are strings): a list or dict
      key raises `TypeError`; a key of any other type is looked up, and only a
      string can be found. */
  function DictGet<V>(d: map<string, V>, k: Value): (r: Result<Option<V>>)
    ensures r.Err? <==> !Hashable(k)
    ensures r.Err? ==> r.message == "unhashable type: '" + TypeName(k) + "'"
    ensures r.Ok? && r.value.Some? <==> k.Str? && k.s in d
    ensures r.Ok? && r.value.Some? ==> r.value.value == d[k.s]
  {
    match k
    case Arr(_) => Err("unhashable type: 'list'")
    case Obj(_) => Err("unhashable type: 'dict'")
    case Str(s) => Ok(if s in d then Some(d[s]) else None)
    case _ => Ok(None)
  }

  /** `d.get(key, default)` for a string key: the stored value, or `default`
      when the key is absent. */
  function GetOr(d: map<string, Value>, key: string, default: Value): (v: Value)
    ensures DictGet(d, Str(key)).value.Some? ==> v == DictGet(d, Str(key)).value.value
    ensures DictGet(d, Str(key)).value.None? ==> v == default
  {
    if key in d then d[key] else default
  }

  /** `item in container` for a string `item`: element test on a list,
      substring test on a string, key test on a dict, `TypeError` otherwise. */
  function In(item: string, container: Value): (r: Result<bool>)
    ensures r.Err? <==> container.Null? || container.Bool? || container.Num?
    ensures r.Err? ==> r.message == "argument of type '" + TypeName(container) + "' is not iterable"
  {
    match container
    case Arr(items) => Ok(Str(item) in items)
    case Str(s) => Ok(Text.Contains(s, item))
    case Obj(fields) => Ok(item in fields)
    case _ => Err("argument of type '" + TypeName(container) + "' is not iterable")
  }

  /** `container[key]` for a string key: a missing dict key raises `KeyError`,
      indexing anything but a dict with a string raises `TypeError`. */
  function Index(container: Value, key: string): (r: Result<Value>)
    ensures r.Ok? <==> container.Obj? && key in container.fields
    ensures r.Ok? ==> r.value == container.fields[key]
  {
    match container
    case Obj(fields) => if key in fields then Ok(fields[key]) else Err("'" + key + "'")
    case Str(_) => Err("string indices must be integers, not 'str'")
    case Arr(_) => Err("list indices must be integers or slices, not str")
    case _ => Err("'" + TypeName(container) + "' object is not subscriptable")
  }

  /** A JSON array of strings. */
  function StrList(xs: seq<string>): (v: Value)
    ensures v.Arr? && |v.items| == |xs|
    ensures forall i :: 0 <= i < |xs| ==> v.items[i] == Str(xs[i])
  {
    Arr(seq(|xs|, i requires 0 <= i < |xs| => Str(xs[i])))
  }

  /** `x in [..strings..]` is plain membership. */
  lemma InStrList(x: string, xs: seq<string>)
    ensures In(x, StrList(xs)) == Ok(x in xs)
  {
  }
}

=== FILE: policy_details.dfy ===
/** The policy-details service: looks a policy id up in the stored policies file
    and returns the stored record, or an `{"error": ...}` result. */
module PolicyDetails {
  import opened Wrappers
  import opened Json
  import ReadOnceCache

  /** `policies.json`: policy id to the stored record. */
  type Policies = map<string, Value>

  const POLICY_ID_REQUIRED: string := "policy_id is required"
  const POLICY_NOT_FOUND: string := "Policy not found"

  /** What the handler returns: the stored record itself, or `{"error": message}`. */
  datatype Response = Record(policy: Value) | Error(message: string)

  /** One handler call: the response, the policies cache it leaves, and whether
      it read the policies file. */
  datatype Step = Step(response: Response, cache: ReadOnceCache.Cache<Policies>, fetched: bool)

  /** `event.get("policy_id")`. */
  function PolicyIdOf(event: map<string, Value>): Value {
    GetOr(event, "policy_id", Null)
  }

  /** `lambda_handler`. `store` is what reading `policies.json` would give if the
      cache is empty. Every failure of the read or of the lookup becomes an error
      result: the handler has no path that raises. */
  function Handle(event: map<string, Value>, cache: ReadOnceCache.Cache<Policies>, store: Result<Policies>)
    : (s: Step)
    ensures !Truthy(PolicyIdOf(event)) ==> s == Step(Error(POLICY_ID_REQUIRED), cache, false)
    ensures Truthy(PolicyIdOf(event)) ==> (s.fetched <==> cache.Unloaded?)
    ensures cache.Loaded? ==> s.cache == cache
    ensures Truthy(PolicyIdOf(event)) ==> s.cache == ReadOnceCache.Get(cache, store).cache
    ensures Truthy(PolicyIdOf(event)) && ReadOnceCache.Get(cache, store).result.Err? ==>
      s.response == Error(ReadOnceCache.Get(cache, store).result.message)
    ensures s.response.Record? ==>
      && s.cache.Loaded?
      && PolicyIdOf(event).Str?
      && PolicyIdOf(event).s in s.cache.value
      && s.response.policy == s.cache.value[PolicyIdOf(event).s]
      && Truthy(s.response.policy)
    ensures Truthy(PolicyIdOf(event)) && s.cache.Loaded? && Hashable(PolicyIdOf(event)) ==>
      (s.response.Record? <==>
         PolicyIdOf(event).Str? && PolicyIdOf(event).s in s.cache.value
         && Truthy(s.cache.value[PolicyIdOf(event).s]))
    ensures s.response.Error? && s.cache.Loaded? && Hashable(PolicyIdOf(event)) && Truthy(PolicyIdOf(event)) ==>
      s.response.message == POLICY_NOT_FOUND
  {
    var policyId := PolicyIdOf(event);
    if !Truthy(policyId) then Step(Error(POLICY_ID_REQUIRED), cache, false)
    else
      var load := ReadOnceCache.Get(cache, store);
      match load.result
      case Err(e) => Step(Error(e), load.cache, load.fetched)
      case Ok(policies) =>
        match DictGet(policies, policyId)
        case Err(e) => Step(Error(e), load.cache, load.fetched)
        case Ok(found) =>
          if found.None? || !Truthy(found.value) then Step(Error(POLICY_NOT_FOUND), load.cache, load.fetched)
          else Step(Record(found.value), load.cache, load.fetched)
  }

  /** A lookup by a non-empty id string, the shape callers use. */
  function Lookup(policyId: string, cache: ReadOnceCache.Cache<Policies>, store: Result<Policies>): Step {
    Handle(map["policy_id" := Str(policyId)], cache, store)
  }

  /** A known id whose record is non-empty is answered with that record,
      unchanged, and a loaded cache is not re-read. */
  lemma KnownPolicyReturned(policyId: string, policies: Policies, store: Result<Policies>)
    requires policyId != "" && policyId in policies && Truthy(policies[policyId])
    ensures Lookup(policyId, ReadOnceCache.Loaded(policies), store)
         == Step(Record(policies[policyId]), ReadOnceCache.Loaded(policies), false)
  {
  }

  /** An unknown id, and equally an id whose stored record is empty (`{}`,
      `null`, ...), is reported as not found. */
  lemma NotFound(policyId: string, policies: Policies, store: Result<Policies>)
    requires policyId != ""
    requires policyId !in policies || !Truthy(policies[policyId])
    ensures Lookup(policyId, ReadOnceCache.Loaded(policies), store).response == Error(POLICY_NOT_FOUND)
  {
  }

  /** The first lookup reads the file; a second one reuses what was read and
      does not read again, whatever the store would now answer. */
  lemma SecondLookupUsesCache(first: string, second: string, policies: Policies, later: Result<Policies>)
    requires first != "" && second != ""
    ensures var s1 := Lookup(first, ReadOnceCache.Unloaded, Ok(policies));
      var s2 := Lookup(second, s1.cache, later);
      && s1.fetched && !s2.fetched
      && s2.cache == ReadOnceCache.Loaded(policies)
      && s2 == Lookup(second, ReadOnceCache.Loaded(policies), Ok(policies))
  {
  }

  /** A failed read is reported as an error result and leaves the cache empty, so
      the next call reads again. */
  lemma FailedReadRetried(policyId: string, message: string, store: Result<Policies>)
    requires policyId != ""
    ensures var s1 := Lookup(policyId, ReadOnceCache.Unloaded, Err(message));
      && s1 == Step(Error(message), ReadOnceCache.Unloaded, true)
      && Lookup(policyId, s1.cache, store).fetched
  {
  }
}

=== FILE: rag_ingestion.dfy ===
/** The decision logic of the ingestion handler: it is told that an object was
    stored, ignores anything that is not a PDF, stops on a document without
    text, and otherwise sends every chunk of the text to the search index with
    metadata naming the source key and the chunk's position. Reading and parsing
    the PDF and posting to the index (embedding plus an authenticated HTTP
    request) are parameters. */
module RagIngestion {
  import opened Wrappers
  import opened Json
  import Text
  import Chunker

  /** The document `index_chunk` posts for one chunk: its text and the metadata
      `{"source": key, "chunk_index": i}`. The embedding vector is computed by
      the back-end and is not part of the model. */
  datatype IndexRequest = IndexRequest(text: string, source: string, chunkIndex: nat)

  /** The handler's return values `{"status": ...}`. */
  datatype Status = IgnoredNonPdf | EmptyDocument | Indexed(file: string, chunks: nat)

  /** One handler call: its result (a raised exception is `Err`), whether it
      extracted the PDF's text, and the index requests it sent, in order. */
  datatype Ingest = Ingest(outcome: Result<Status>, extracted: bool, requests: seq<IndexRequest>)

  /** `key.lower().endswith(".pdf")`: the last four characters of the key spell
      ".pdf" in any mix of cases. */
  predicate IsPdfKey(key: string)
    ensures IsPdfKey(key) <==> |key| >= 4 && Text.Lower(key[|key| - 4..]) == ".pdf"
  {
    Text.EndsWith(Text.Lower(key), ".pdf")
  }

  /** The request for chunk `i` of the document stored under `key`. */
  function RequestFor(key: string, chunks: seq<string>, i: nat): IndexRequest
    requires i < |chunks|
  {
    IndexRequest(chunks[i], key, i)
  }

  /** `index_chunk`: `post` embeds and posts the document, answering the HTTP
      status or failing; a status other than 200 or 201 raises. */
  function IndexChunk(req: IndexRequest, post: IndexRequest -> Result<int>): (r: Result<()>)
    ensures r.Ok? <==> post(req) == Ok(200) || post(req) == Ok(201)
  {
    var status :- post(req);
    if status == 200 || status == 201 then Ok(()) else Err("Indexing failed")
  }

  /** What the indexing loop did: how it ended and the requests it sent, in
      order. */
  datatype Sent = Sent(outcome: Result<()>, requests: seq<IndexRequest>)

  /** The index accepted every one of `reqs`. */
  predicate AllAccepted(reqs: seq<IndexRequest>, post: IndexRequest -> Result<int>) {
    forall k :: 0 <= k < |reqs| ==> IndexChunk(reqs[k], post).Ok?
  }

  /** One step of the indexing loop: an accepted request for chunk `from`,
      put in front of what the loop sent from `from + 1` on, keeps every
      promise `IndexAll` makes. */
  lemma AcceptedStep(key: string, chunks: seq<string>, from: nat, post: IndexRequest -> Result<int>,
                     req: IndexRequest, rest: Sent)
    requires from < |chunks|
    requires req == RequestFor(key, chunks, from) && IndexChunk(req, post).Ok?
    requires |rest.requests| <= |chunks| - (from + 1)
    requires forall k :: 0 <= k < |rest.requests| ==> rest.requests[k] == RequestFor(key, chunks, from + 1 + k)
    requires forall k :: 0 <= k < |rest.requests| - 1 ==> IndexChunk(rest.requests[k], post).Ok?
    requires rest.outcome.Ok? <==> |rest.requests| == |chunks| - (from + 1) && AllAccepted(rest.requests, post)
    requires rest.outcome.Err? ==>
      |rest.requests| > 0 && IndexChunk(rest.requests[|rest.requests| - 1], post).Err?
    ensures var sent := [req] + rest.requests;
      && |sent| <= |chunks| - from
      && (forall k :: 0 <= k < |sent| ==> sent[k] == RequestFor(key, chunks, from + k))
      && (forall k :: 0 <= k < |sent| - 1 ==> IndexChunk(sent[k], post).Ok?)
      && (rest.outcome.Ok? <==> |sent| == |chunks| - from && AllAccepted(sent, post))
      && (rest.outcome.Err? ==> |sent| > 0 && IndexChunk(sent[|sent| - 1], post).Err?)
  {
    var sent := [req] + rest.requests;
    assert sent[0] == req;
    assert forall k :: 1 <= k < |sent| ==> sent[k] == rest.requests[k - 1];
    assert |rest.requests| > 0 ==> sent[|sent| - 1] == rest.requests[|rest.requests| - 1];
    assert AllAccepted(sent, post) <==> AllAccepted(rest.requests, post);
  }

  /** The `for i, chunk in enumerate(chunks)` loop from position `from` on. It
      sends the requests for chunks `from, from + 1, ...` in order and stops at
      the first one that fails; it succeeds when every chunk was sent and
      accepted. */
  function IndexAll(key: string, chunks: seq<string>, from: nat, post: IndexRequest -> Result<int>)
    : (r: Sent)
    requires from <= |chunks|
    ensures |r.requests| <= |chunks| - from
    ensures forall k :: 0 <= k < |r.requests| ==> r.requests[k] == RequestFor(key, chunks, from + k)
    ensures forall k :: 0 <= k < |r.requests| - 1 ==> IndexChunk(r.requests[k], post).Ok?
    ensures r.outcome.Ok? <==> |r.requests| == |chunks| - from && AllAccepted(r.requests, post)
    ensures r.outcome.Err? ==> |r.requests| > 0 && IndexChunk(r.requests[|r.requests| - 1], post).Err?
    decreases |chunks| - from
  {
    if from == |chunks| then Sent(Ok(()), [])
    else
      var req := RequestFor(key, chunks, from);
      var first := IndexChunk(req, post);
      if first.Err? then
        assert [req][0] == req;
        Sent(Err(first.message), [req])
      else
        var rest := IndexAll(key, chunks, from + 1, post);
        AcceptedStep(key, chunks, from, post, req, rest);
        Sent(rest.outcome, [req] + rest.requests)
  }

  /** The handler once the bucket and key are known. */
  function HandleObject(bucket: Value, key: string, extract: (Value, string) -> Result<string>,
                        post: IndexRequest -> Result<int>): (r: Ingest)
    ensures r.outcome == Ok(IgnoredNonPdf) <==> !IsPdfKey(key)
    ensures !IsPdfKey(key) ==> !r.extracted && r.requests == []
    ensures r.extracted <==> IsPdfKey(key)
    ensures r.outcome == Ok(EmptyDocument) <==> IsPdfKey(key) && extract(bucket, key) == Ok("")
    ensures r.outcome == Ok(EmptyDocument) ==> r.requests == []
    ensures r.outcome.Ok? && r.outcome.value.Indexed? ==>
      && IsPdfKey(key)
      && extract(bucket, key).Ok?
      && var chunks := Chunker.ChunkText(extract(bucket, key).value, Chunker.DEFAULT_CHUNK_SIZE, Chunker.DEFAULT_OVERLAP);
      && r.outcome.value == Indexed(key, |chunks|)
      && r.outcome.value.chunks > 0
      && |r.requests| == |chunks|
      && forall i :: 0 <= i < |chunks| ==> r.requests[i] == IndexRequest(chunks[i], key, i)
    ensures IsPdfKey(key) && extract(bucket, key).Err? ==>
      r == Ingest(Err(extract(bucket, key).message), true, [])
    ensures IsPdfKey(key) && extract(bucket, key).Ok? && extract(bucket, key).value != "" ==>
      var chunks := Chunker.ChunkText(extract(bucket, key).value, Chunker.DEFAULT_CHUNK_SIZE, Chunker.DEFAULT_OVERLAP);
      && r.requests == IndexAll(key, chunks, 0, post).requests
      && (r.outcome.Ok? <==> IndexAll(key, chunks, 0, post).outcome.Ok?)
      && (r.outcome.Ok? ==> r.outcome == Ok(Indexed(key, |chunks|)))
  {
    if !IsPdfKey(key) then Ingest(Ok(IgnoredNonPdf), false, [])
    else
      match extract(bucket, key)
      case Err(e) => Ingest(Err(e), true, [])
      case Ok(text) =>
        if text == "" then Ingest(Ok(EmptyDocument), true, [])
        else
          var chunks := Chunker.ChunkText(text, Chunker.DEFAULT_CHUNK_SIZE, Chunker.DEFAULT_OVERLAP);
          var sent := IndexAll(key, chunks, 0, post);
          match sent.outcome
          case Err(e) => Ingest(Err(e), true, sent.requests)
          case Ok(_) => Ingest(Ok(Indexed(key, |chunks|)), true, sent.requests)
  }

  /** `v[key]` once `v` itself has been read: a failure earlier in the chain
      is passed on. */
  function Then(v: Result<Value>, key: string): (r: Result<Value>)
    ensures r.Ok? <==> v.Ok? && Index(v.value, key).Ok?
    ensures r.Ok? ==> r == Index(v.value, key)
  {
    if v.Ok? then Index(v.value, key) else v
  }

  /** `event["detail"]["bucket"]["name"]`. */
  function BucketName(event: Value): Result<Value> {
    Then(Then(Then(Ok(event), "detail"), "bucket"), "name")
  }

  /** `event["detail"]["object"]["key"]`. */
  function ObjectKey(event: Value): Result<Value> {
    Then(Then(Then(Ok(event), "detail"), "object"), "key")
  }

  /** The bucket and key of the stored object; a key that is not a string fails
      at `key.lower()`. Reading succeeds exactly when both paths are present and
      the key is a string. */
  function ReadEvent(event: Value): (r: Result<(Value, string)>)
    ensures r.Ok? <==> BucketName(event).Ok? && ObjectKey(event).Ok? && ObjectKey(event).value.Str?
    ensures r.Ok? ==> r.value == (BucketName(event).value, ObjectKey(event).value.s)
  {
    var detail :- Index(event, "detail");
    var bucketInfo :- Index(detail, "bucket");
    var bucket :- Index(bucketInfo, "name");
    var objectInfo :- Index(detail, "object");
    var key :- Index(objectInfo, "key");
    if key.Str? then Ok((bucket, key.s))
    else Err("'" + TypeName(key) + "' object has no attribute 'lower'")
  }

  /** `lambda_handler`: a malformed event is re-raised before anything is read.
      Otherwise the object named by `detail.object.key` in the bucket
      `detail.bucket.name` is handled: only a PDF key is extracted, and every
      request sent names that key as its source and carries its own position. */
  function Handle(event: Value, extract: (Value, string) -> Result<string>,
                  post: IndexRequest -> Result<int>): (r: Ingest)
    ensures ReadEvent(event).Err? ==> r.outcome.Err? && !r.extracted && r.requests == []
    ensures r.outcome == Ok(IgnoredNonPdf) <==>
      ObjectKey(event).Ok? && ObjectKey(event).value.Str? && BucketName(event).Ok?
      && !IsPdfKey(ObjectKey(event).value.s)
    ensures r.extracted <==>
      ObjectKey(event).Ok? && ObjectKey(event).value.Str? && BucketName(event).Ok?
      && IsPdfKey(ObjectKey(event).value.s)
    ensures r.extracted ==>
      (r.outcome == Ok(EmptyDocument) <==> extract(BucketName(event).value, ObjectKey(event).value.s) == Ok(""))
    ensures forall i :: 0 <= i < |r.requests| ==>
      r.requests[i].source == ObjectKey(event).value.s && r.requests[i].chunkIndex == i
    ensures r.outcome.Ok? && r.outcome.value.Indexed? ==>
      r.outcome.value.file == ObjectKey(event).value.s && r.outcome.value.chunks == |r.requests|
    ensures r.outcome == Ok(EmptyDocument) ==> r.requests == []
    ensures r.extracted ==>
      var key := ObjectKey(event).value.s;
      var text := extract(BucketName(event).value, key);
      text.Ok? && text.value != "" ==>
      var chunks := Chunker.ChunkText(text.value, Chunker.DEFAULT_CHUNK_SIZE, Chunker.DEFAULT_OVERLAP);
      && r.requests == IndexAll(key, chunks, 0, post).requests
      && (r.outcome.Ok? <==> IndexAll(key, chunks, 0, post).outcome.Ok?)
      && (r.outcome.Ok? ==> r.outcome == Ok(Indexed(key, |chunks|)))
  {
    match ReadEvent(event)
    case Err(e) => Ingest(Err(e), false, [])
    case Ok(location) => HandleObject(location.0, location.1, extract, post)
  }

  /** The event the storage service sends when an object is created: its
      bucket under `detail.bucket.name` and its key under `detail.object.key`. */
  function ObjectCreated(bucket: Value, key: string): Value {
    Obj(map["detail" := Obj(map[
      "bucket" := Obj(map["name" := bucket]),
      "object" := Obj(map["key" := Str(key)])])])
  }

  /** The handler reads back the bucket and key the event carries, and handles
      exactly that object. */
  lemma EventRoundTrip(bucket: Value, key: string, extract: (Value, string) -> Result<string>,
                       post: IndexRequest -> Result<int>)
    ensures ReadEvent(ObjectCreated(bucket, key)) == Ok((bucket, key))
    ensures Handle(ObjectCreated(bucket, key), extract, post) == HandleObject(bucket, key, extract, post)
  {
    var event := ObjectCreated(bucket, key);
    var detail := Obj(map["bucket" := Obj(map["name" := bucket]), "object" := Obj(map["key" := Str(key)])]);
    assert Index(event, "detail") == Ok(detail);
    assert BucketName(event) == Ok(bucket);
    assert ObjectKey(event) == Ok(Str(key));
  }

  /** An upper-case extension is accepted: `key.lower()` turns ".PDF" into ".pdf". */
  lemma UpperCaseExtensionAccepted(key: string)
    requires Text.EndsWith(key, ".PDF")
    ensures IsPdfKey(key)
  {
  }

  /** A key with some other extension is ignored without touching the store or
      the index: here, any key ending in ".txt". */
  lemma TextFileIgnored(bucket: Value, key: string, extract: (Value, string) -> Result<string>,
                        post: IndexRequest -> Result<int>)
    requires Text.EndsWith(key, ".txt")
    ensures HandleObject(bucket, key, extract, post) == Ingest(Ok(IgnoredNonPdf), false, [])
  {
    var n := |key|;
    Text.LowerSlice(key, n - 4, n);
    assert Text.Lower(key)[n - 4..] == ".txt";
  }

  /** A PDF with text whose every chunk the index accepts is reported
      `indexed` with the number of chunks of the default chunking, after one
      request per chunk, in order. */
  lemma AcceptedPdfIndexed(bucket: Value, key: string, text: string,
                           extract: (Value, string) -> Result<string>, post: IndexRequest -> Result<int>)
    requires IsPdfKey(key) && extract(bucket, key) == Ok(text) && text != ""
    requires forall req :: post(req) == Ok(200) || post(req) == Ok(201)
    ensures var chunks := Chunker.ChunkText(text, Chunker.DEFAULT_CHUNK_SIZE, Chunker.DEFAULT_OVERLAP);
      var r := HandleObject(bucket, key, extract, post);
      && r.outcome == Ok(Indexed(key, |chunks|))
      && r.requests == seq(|chunks|, i requires 0 <= i < |chunks| => IndexRequest(chunks[i], key, i))
  {
    var chunks := Chunker.ChunkText(text, Chunker.DEFAULT_CHUNK_SIZE, Chunker.DEFAULT_OVERLAP);
  }

  /** A chunk the index rejects ends the loop: it is the last request sent,
      none of the later chunks is sent, and the handler raises. */
  lemma RejectionStopsIndexing(bucket: Value, key: string, text: string, n: nat,
                               extract: (Value, string) -> Result<string>, post: IndexRequest -> Result<int>)
    requires IsPdfKey(key) && extract(bucket, key) == Ok(text) && text != ""
    requires var chunks := Chunker.ChunkText(text, Chunker.DEFAULT_CHUNK_SIZE, Chunker.DEFAULT_OVERLAP);
      && n < |chunks|
      && (forall i :: 0 <= i < n ==> IndexChunk(IndexRequest(chunks[i], key, i), post).Ok?)
      && IndexChunk(IndexRequest(chunks[n], key, n), post).Err?
    ensures var r := HandleObject(bucket, key, extract, post);
      r.outcome.Err? && |r.requests| == n + 1
  {
    var chunks := Chunker.ChunkText(text, Chunker.DEFAULT_CHUNK_SIZE, Chunker.DEFAULT_OVERLAP);
    var sent := IndexAll(key, chunks, 0, post);
    assert |sent.requests| > n by {
      if sent.outcome.Err? {
        var last := |sent.requests| - 1;
        assert sent.requests[last] == IndexRequest(chunks[last], key, last);
      }
    }
    assert sent.requests[n] == IndexRequest(chunks[n], key, n);
  }
}

=== FILE: read_once_cache.dfy ===
/** The module-level cache shared by the policy and document-rule services
    (`POLICIES_CACHE`, `DOCUMENT_RULES_CACHE`): it starts as `None`, the first
    call that finds it `None` reads and decodes the stored file, and only a
    successful read fills it. A failed read leaves it `None`, so the next call
    reads again. */
module ReadOnceCache {
  import opened Wrappers

  datatype Cache<T> = Unloaded | Loaded(value: T)

  /** What one call of the loader returns, the cache it leaves behind, and
      whether it read the store. */
  datatype Load<T> = Load(result: Result<T>, cache: Cache<T>, fetched: bool)

  /** One call of the loader. `store` is what reading and decoding the stored
      file would give at the moment of the call; it is only consulted when the
      cache is empty. */
  function Get<T>(c: Cache<T>, store: Result<T>): (l: Load<T>)
    ensures l.fetched <==> c.Unloaded?
    ensures c.Loaded? ==> l.result == Ok(c.value) && l.cache == c
    ensures c.Unloaded? ==> l.result == store
    ensures l.result.Ok? <==> l.cache.Loaded?
    ensures l.result.Ok? ==> l.cache.value == l.result.value
  {
    match c
    case Loaded(v) => Load(Ok(v), c, false)
    case Unloaded =>
      match store
      case Ok(v) => Load(store, Loaded(v), true)
      case Err(_) => Load(store, Unloaded, true)
  }

  /** Successive calls, call `i` seeing the store answer `stores[i]` and the
      cache left by call `i - 1`. */
  function Run<T>(c: Cache<T>, stores: seq<Result<T>>): (r: seq<Load<T>>)
    ensures |r| == |stores|
    decreases |stores|
  {
    if |stores| == 0 then []
    else
      var first := Get(c, stores[0]);
      [first] + Run(first.cache, stores[1..])
  }

  /** A loaded cache is never re-read and always answers its value. */
  lemma {:induction false} RunFromLoaded<T>(v: T, stores: seq<Result<T>>)
    ensures forall i :: 0 <= i < |stores| ==>
      Run(Loaded(v), stores)[i] == Load(Ok(v), Loaded(v), false)
    decreases |stores|
  {
    if |stores| > 0 {
      RunFromLoaded(v, stores[1..]);
    }
  }

  /** Read at most once: after the first call that returns a value, no call
      reads the store again and every call returns that same value. */
  lemma {:induction false} ReadOnce<T>(c: Cache<T>, stores: seq<Result<T>>)
    ensures forall i, j :: 0 <= i < j < |stores| && Run(c, stores)[i].result.Ok? ==>
      !Run(c, stores)[j].fetched && Run(c, stores)[j].result == Run(c, stores)[i].result
    decreases |stores|
  {
    if |stores| > 0 {
      var r := Run(c, stores);
      var first := Get(c, stores[0]);
      assert r[1..] == Run(first.cache, stores[1..]);
      ReadOnce(first.cache, stores[1..]);
      if first.result.Ok? {
        RunFromLoaded(first.result.value, stores[1..]);
      }
      forall i, j | 0 <= i < j < |stores| && r[i].result.Ok?
        ensures !r[j].fetched && r[j].result == r[i].result
      {
        if i > 0 {
          assert r[i] == r[1..][i - 1] && r[j] == r[1..][j - 1];
        } else {
          assert r[j] == r[1..][j - 1];
        }
      }
    }
  }
}

=== FILE: text.dfy ===
/** The string operations the services rely on: ASCII case mapping (`str.lower`,
    `str.upper`), substring search (`needle in haystack`), `str.endswith`, and the
    decimal and hexadecimal printing used to build identifiers. */
module Text {

  // ---------------------------------------------------------------------------
  // Case mapping
  // ---------------------------------------------------------------------------

  predicate IsUpperAscii(c: char) {
    'A' <= c <= 'Z'
  }

  predicate IsLowerAscii(c: char) {
    'a' <= c <= 'z'
  }

  function LowerChar(c: char): (r: char)
    ensures !IsUpperAscii(r)
    ensures IsUpperAscii(c) ==> r as int == c as int + 32
    ensures !IsUpperAscii(c) ==> r == c
  {
    if IsUpperAscii(c) then (c as int + 32) as char else c
  }

  function UpperChar(c: char): (r: char)
    ensures !IsLowerAscii(r)
    ensures IsLowerAscii(c) ==> r as int == c as int - 32
    ensures !IsLowerAscii(c) ==> r == c
  {
    if IsLowerAscii(c) then (c as int - 32) as char else c
  }

  /** `s.lower()`, restricted to the ASCII letters. */
  function Lower(s: string): (r: string)
    ensures |r| == |s|
    ensures forall i :: 0 <= i < |s| ==> r[i] == LowerChar(s[i])
  {
    seq(|s|, i requires 0 <= i < |s| => LowerChar(s[i]))
  }

  /** `s.upper()`, restricted to the ASCII letters. */
  function Upper(s: string): (r: string)
    ensures |r| == |s|
    ensures forall i :: 0 <= i < |s| ==> r[i] == UpperChar(s[i])
  {
    seq(|s|, i requires 0 <= i < |s| => UpperChar(s[i]))
  }

  /** Lower-casing twice is lower-casing once. */
  lemma LowerIdempotent(s: string)
    ensures Lower(Lower(s)) == Lower(s)
  {
  }

  /** Lower-casing commutes with taking a slice. */
  lemma LowerSlice(s: string, i: int, j: int)
    requires 0 <= i <= j <= |s|
    ensures Lower(s)[i..j] == Lower(s[i..j])
  {
  }

  // ---------------------------------------------------------------------------
  // Substrings
  // ---------------------------------------------------------------------------

  predicate IsPrefix(prefix: string, s: string) {
    |prefix| <= |s| && s[..|prefix|] == prefix
  }

  /** `s.endswith(suffix)`: the last `|suffix|` characters of `s` are those of
      `suffix`, one by one. */
  predicate EndsWith(s: string, suffix: string)
    ensures EndsWith(s, suffix) <==>
      |suffix| <= |s| && forall k :: 0 <= k < |suffix| ==> s[|s| - |suffix| + k] == suffix[k]
  {
    |suffix| <= |s| && s[|s| - |suffix|..] == suffix
  }

  /** `needle` occurs in `s` starting at position `i`. */
  predicate OccursAt(s: string, needle: string, i: int) {
    0 <= i && i + |needle| <= |s| && s[i..i + |needle|] == needle
  }

  /** `needle in s`, the way a left-to-right scan decides it. The empty string
      is in every string, and nothing longer than `s` is in it. */
  predicate Contains(s: string, needle: string)
    ensures |needle| == 0 ==> Contains(s, needle)
    ensures Contains(s, needle) ==> |needle| <= |s|
    decreases |s|
  {
    IsPrefix(needle, s) || (|s| > 0 && Contains(s[1..], needle))
  }

  /** The scan finds `needle` exactly when it occurs at some position. */
  lemma {:induction false} ContainsIff(s: string, needle: string)
    ensures Contains(s, needle) <==> exists i :: OccursAt(s, needle, i)
    decreases |s|
  {
    if IsPrefix(needle, s) {
      assert OccursAt(s, needle, 0);
    } else if |s| > 0 {
      var t := s[1..];
      ContainsIff(t, needle);
      forall i | OccursAt(t, needle, i)
        ensures OccursAt(s, needle, i + 1)
      {
        assert t[i..i + |needle|] == s[i + 1..i + 1 + |needle|];
      }
      forall i | OccursAt(s, needle, i) && i > 0
        ensures OccursAt(t, needle, i - 1)
      {
        assert t[i - 1..i - 1 + |needle|] == s[i..i + |needle|];
      }
    }
  }

  /** An occurrence survives lower-casing both strings. */
  lemma ContainsLower(s: string, needle: string)
    requires Contains(s, needle)
    ensures Contains(Lower(s), Lower(needle))
  {
    ContainsIff(s, needle);
    var i :| OccursAt(s, needle, i);
    LowerSlice(s, i, i + |needle|);
    assert OccursAt(Lower(s), Lower(needle), i);
    ContainsIff(Lower(s), Lower(needle));
  }

  // ---------------------------------------------------------------------------
  // Number printing
  // ---------------------------------------------------------------------------

  predicate IsDigit(c: char) {
    '0' <= c <= '9'
  }

  /** The characters of `'%x' % n` and of its upper-cased form. */
  predicate IsLowerHexDigit(c: char) {
    IsDigit(c) || 'a' <= c <= 'f'
  }

  predicate IsUpperHexDigit(c: char) {
    IsDigit(c) || 'A' <= c <= 'F'
  }

  function DigitChar(d: nat): (c: char)
    requires d < 10
    ensures IsDigit(c)
  {
    (48 + d) as char
  }

  function HexDigitChar(d: nat): (c: char)
    requires d < 16
    ensures IsLowerHexDigit(c)
  {
    if d < 10 then DigitChar(d) else (87 + d) as char
  }

  /** `str(n)` for a natural number: decimal, no leading zeros. */
  function NatToString(n: nat): (r: string)
    ensures |r| >= 1
    ensures |r| == 1 <==> n < 10
    ensures forall i :: 0 <= i < |r| ==> IsDigit(r[i])
    decreases n
  {
    if n < 10 then [DigitChar(n)] else NatToString(n / 10) + [DigitChar(n % 10)]
  }

  /** The value of a decimal digit. */
  function DigitOf(c: char): (d: nat)
    requires IsDigit(c)
    ensures d < 10 && DigitChar(d) == c
  {
    c as int - '0' as int
  }

  /** The number a string of decimal digits denotes, most significant digit
      first: `int(s)` for a non-empty `s`, and 0 for the empty one. */
  function DecimalValue(s: string): nat
    requires forall i :: 0 <= i < |s| ==> IsDigit(s[i])
    decreases |s|
  {
    if s == [] then 0 else 10 * DecimalValue(s[..|s| - 1]) + DigitOf(s[|s| - 1])
  }

  /** Printing is right: the digits denote `n`, and only zero begins with
      the digit zero, so `int(str(n)) == n` and there is no leading zero. */
  lemma {:induction false} NatToStringValue(n: nat)
    ensures DecimalValue(NatToString(n)) == n
    ensures NatToString(n)[0] == '0' <==> n == 0
    decreases n
  {
    var s := NatToString(n);
    if n >= 10 {
      NatToStringValue(n / 10);
      assert s[..|s| - 1] == NatToString(n / 10);
      assert s[|s| - 1] == DigitChar(n % 10);
      assert s[0] == NatToString(n / 10)[0];
    }
  }

  /** Different numbers print differently. */
  lemma {:induction false} NatToStringInjective(a: nat, b: nat)
    requires NatToString(a) == NatToString(b)
    ensures a == b
    decreases a
  {
    if a >= 10 && b >= 10 {
      var sa, sb := NatToString(a), NatToString(b);
      assert sa[..|sa| - 1] == NatToString(a / 10);
      assert sb[..|sb| - 1] == NatToString(b / 10);
      NatToStringInjective(a / 10, b / 10);
      assert sa[|sa| - 1] == DigitChar(a % 10);
      assert sb[|sb| - 1] == DigitChar(b % 10);
    }
  }

  /** The low `width` hexadecimal digits of `n`, most significant first, in
      lower case: `'%0{width}x' % (n mod 16^width)`. */
  function HexDigits(n: nat, width: nat): (r: string)
    ensures |r| == width
    ensures forall i :: 0 <= i < |r| ==> IsLowerHexDigit(r[i])
    decreases width
  {
    if width == 0 then [] else HexDigits(n / 16, width - 1) + [HexDigitChar(n % 16)]
  }

  /** Upper-casing a lower-case hexadecimal string gives an upper-case one. */
  lemma UpperHex(s: string)
    requires forall i :: 0 <= i < |s| ==> IsLowerHexDigit(s[i])
    ensures forall i :: 0 <= i < |s| ==> IsUpperHexDigit(Upper(s)[i])
  {
  }
}

=== FILE: wrappers.dfy ===
/** Option and Result: the absence of a value, and a computation that either
    produces a value or fails the way a raised Python exception would. Both are
    failure-compatible, so `:-` propagates the first failure. */
module Wrappers {

  datatype Option<+T> = None | Some(value: T)

  /** `Err(message)` stands for an exception whose `str()` is `message`. */
  datatype Result<+T> = Ok(value: T) | Err(message: string) {

    predicate IsFailure() {
      Err?
    }

    function PropagateFailure<U>(): Result<U>
      requires Err?
    {
      Err(message)
    }

    function Extract(): T
      requires Ok?
    {
      value
    }
  }
}
